=== FILE: README.md ===
# vk_cg_pipeline asset core in Dafny

This project models the asset core of the vk_cg_pipeline production pipeline:

- **Assets and AssetVersions.** An Asset is a slot into which versions are committed. An AssetVersion is one numbered commit of a slot, holding its contents and its dependencies on other AssetVersions.
- **Containers.** A FileContainer holds strings. The newer AssetContainer holds AssetVersions and the older one holds Assets.
- **The name generator.** It builds names from slot paths using configured rules.
- **The Store getters.** They read the slot/version/contents/dependencies dictionary.
- **Slot and ElementRegistry.**

Both revisions of `asset.py` are modelled:

- the newer one in `Assets`;
- the older one in `LegacyAssets`.

The name generator is modelled in its newer form (`Names.GenerateName`, `Names.GetTokens`, `Names.SlotParser`) and in its older form (`Names.LegacyGenerateName`, `Names.LegacySlotParser`). `pipeline/core/assets/utils.py` and `pipeline/database/store.py` are identical copies of the files under `vk_pipeline_core/`, so the model cites the latter. `core/assets/container.py` and `core/assets/slot.py` are identical to `assets/container.py` and `assets/slot.py`.

Every operation is a pure function. State that the Python code mutates is threaded through explicitly:

- The Store's class-level dictionary is a `Store.Data` parameter.
- The memoized dependency list is the pair `deps`/`depsLoaded` of an AssetVersion. `Dependencies` returns the updated AssetVersion with its answer.
- The registry dictionary is a `Registry.Table`.
- The naming configuration that `name()` reads, and the order in which Python iterates a dictionary with integer keys, form an `Assets.Context` parameter.

Exceptions become `Failure` values of `Errors.Error`:

| Python exception | `Errors.Error` value |
|---|---|
| DataMismatchException | `DataMismatch` |
| DataIntegrityException | `DataIntegrity` |
| AssetVersionInitializationException | `InitializationFailed` |
| TokenNotFoundException | `TokenNotFound` |
| the `TypeError` of `__eq__` | `IdentityTypeError` |
| the `ValueError` of the older AssetVersion constructor | `MissingSlotAndAsset` |
| `int(key)` on a bad version key | `BadVersionKey` |
| abstract methods | `NotImplemented` |
| any other Python runtime error: `TypeError`/`AttributeError` on None, `ValueError` of `list.remove` | `RuntimeFault` |

Python's semantics are written out where the code depends on them:

- **Type check.** `str(None)` is `"None"`. So a slot without a type never matches a stored type (`Assets.KindMatches`).
- **Version keys.** `int(key)` conversion into a fresh dict records each number at its first insertion, and the last value wins (`Store.ConvertKeys`).
- **Dictionary order.** Python 2 iterates a dict in the slot order of its hash table, not in insertion order. That order is a parameter (`Store.DictOrder`). `Store.Iterate` visits every key once, and `Store.EveryListingIsAnOrder` shows that any listing of the keys can arise.
- **Key filter.** `filter` returns a list.
- **`__eq__`.** `__eq__` against a foreign class raises in either operand order (`Containers.PyEq`).
- **`slot_parser` regex.** `re.match(".*/TOKEN:([a-z0-9]+)")` selects the last occurrence on the first line that is followed by a lower-case letter or digit (`Names.SlotParserReadsLastOccurrence`). The rule regexes themselves are a parameter (`Names.Matcher`).

Where the code differs from what its names and docstrings suggest, the model follows the code:

- **Load order.** `Asset` loads versions in the order the versions dict iterates, not sorted. `latest_version` is the number of the last one appended, which need not be the largest.
- **Names in log messages.** `Asset(slot)` and the first `dependencies()` call format `self.name()` eagerly for their log lines. The name is therefore generated, cached, and can raise, even though the log line itself is not modelled.
- **AssetContainer `add_content`.** It never adds anything (see Findings).
- **`remove_content`.** It never removes anything (see Findings).
- **Token errors.** In the newer generator, a missing token does not surface as an error. `generate_name` catches `TokenNotFoundException` and returns None, so `AssetVersion.name()` reads `"None_v<k>"`. In the older generator, `slot_parser` returns None and `"_".join` raises.
- **Untyped dependency target.** A dependency on a slot whose entry has no `"type"` raises DataMismatchException.
- **`add_version` result.** `add_version` returns nothing.

## Model

| member | source | states |
|---|---|---|
| Slots.NewSlot | assets/slot.py:2-15 | the id is the `path` argument (None when it is absent) and the type is the `type` argument |
| Slots.SlotStr | assets/slot.py:17-18 | `str(slot)` is the id, and raises exactly when the slot has no id |
| Slots.StrOfNewSlot | assets/slot.py:13-18 | a slot built from a path prints as that path |
| Store.NatToDecimal | vk_pipeline_core/src/VK/pipeline/database/store.py:40-46 | the decimal spelling JSON stores a version number as is non-empty and all digits |
| Store.DigitsValueOfDecimal | vk_pipeline_core/src/VK/pipeline/database/store.py:44-46 | reading back the digits of a number's decimal spelling gives the number |
| Store.ParseInt | vk_pipeline_core/src/VK/pipeline/database/store.py:46 | `int(key)` accepts exactly an optional sign followed by one or more ASCII digits; a `-` gives a non-positive number, anything else a non-negative one, and a `+` changes nothing |
| Store.DigitsValueLeadingZero | vk_pipeline_core/src/VK/pipeline/database/store.py:46 | a leading zero does not change the value of a run of digits |
| Store.ParseIntLeadingZero | vk_pipeline_core/src/VK/pipeline/database/store.py:46 | `int("0" + s) == int(s)`, so keys such as `"01"` and `"1"` convert to the same number and meet in one dict entry |
| Store.ParseIntNegated | vk_pipeline_core/src/VK/pipeline/database/store.py:46 | `int("-" + s)` is the negation of `int(s)`; with the leading-zero and `+` facts and `int(str(n)) == n`, this fixes the value of every accepted key |
| Store.ParseIntOfDecimal | vk_pipeline_core/src/VK/pipeline/database/store.py:44-46 | `int(str(n)) == n` for every integer, so a version key written by its number converts back to it |
| Store.DecimalInjective | vk_pipeline_core/src/VK/pipeline/database/store.py:44-46 | distinct version numbers have distinct key strings |
| Store.Keys | vk_pipeline_core/src/VK/pipeline/database/store.py:45-47 | the version numbers of a converted dict, in insertion order |
| Store.IndexOf | vk_pipeline_core/src/VK/pipeline/database/store.py:46 | the first position holding a key, or None exactly when the key is absent |
| Store.Lookup | vk_pipeline_core/src/VK/pipeline/database/store.py:55 | `dict.get`: None exactly when the key is absent; with distinct keys it is the value stored under the key |
| Store.Put | vk_pipeline_core/src/VK/pipeline/database/store.py:46 | dict assignment: a fresh key is recorded after the keys inserted before it, an existing key keeps its entry and takes the new value, other keys read as before, and keys stay distinct |
| Store.ConvertKeys | vk_pipeline_core/src/VK/pipeline/database/store.py:40-47 | succeeds iff every key parses as an integer (else BadVersionKey); the keys are distinct and each number maps to the last raw entry whose key converts to it |
| Store.ConvertDecimalKeys | vk_pipeline_core/src/VK/pipeline/database/store.py:40-47 | keys that spell distinct numbers convert to those numbers, each with its own record, inserted in the order the raw keys are read |
| Store.Iterate | vk_pipeline_core/src/VK/pipeline/core/assets/asset.py:117 | `for k in d` over a dict of version numbers: each key exactly once, distinct when the keys are, by increasing rank in the given iteration order |
| Store.EveryListingIsAnOrder | vk_pipeline_core/src/VK/pipeline/core/assets/asset.py:117 | every listing of a dict's keys, each once, is the visiting order of some iteration order |
| Store.GetEntries | vk_pipeline_core/src/VK/pipeline/database/store.py:24-26 | the slot's record, or None exactly when the slot is None or not in the data |
| Store.GetTypeData | vk_pipeline_core/src/VK/pipeline/database/store.py:28-32 | None without an entry; otherwise the entry's `"type"` |
| Store.GetVersionsData | vk_pipeline_core/src/VK/pipeline/database/store.py:34-48 | None exactly when there is no entry or no `"versions"`; otherwise it succeeds iff every key passes `int()` (else BadVersionKey), and the dict it builds has distinct keys, each looking up the last raw entry whose key converts to it |
| Store.GetVersionData | vk_pipeline_core/src/VK/pipeline/database/store.py:51-55 | fails exactly when the versions dict fails; Some exactly when the number is among its keys, and then the last stored record for that number; the only error is BadVersionKey |
| Store.GetDependencyData | vk_pipeline_core/src/VK/pipeline/database/store.py:57-62 | `[]` when the version or its `"dependencies"` is absent, otherwise the stored pairs; fails exactly when the version lookup does, and then with BadVersionKey |
| Store.GetContentData | vk_pipeline_core/src/VK/pipeline/database/store.py:64-69 | `[]` when the version or its `"contents"` is absent, otherwise the stored list; fails exactly when the version lookup does, and then with BadVersionKey |
| Store.DecimalKeyedVersions | vk_pipeline_core/src/VK/pipeline/database/store.py:34-48 | a "versions" object keyed by `str(n)` for distinct numbers n converts to exactly those numbers, each paired with its own record, in the order the keys are read |
| Store.DecimalKeyedReads | vk_pipeline_core/src/VK/pipeline/database/store.py:51-69 | for such an object, the version, contents and dependency getters for one of its numbers answer that number's own record and its fields |
| Store.UnstoredVersionReads | vk_pipeline_core/src/VK/pipeline/database/store.py:51-55 | a number that is not a key of such an object, or any number of a slot without entry, has no record |
| Store.LoadData | vk_pipeline_core/src/VK/pipeline/database/store.py:14-22 | a dict replaces the data; a readable `.json` path replaces it with the file's `"data"`; any other source leaves it unchanged |
| Store.LoadDictAnswersFromIt | vk_pipeline_core/src/VK/pipeline/database/store.py:14-26 | after loading a dict, `get_entries` answers from that dict |
| Containers.PyEq | vk_pipeline_core/src/VK/pipeline/core/assets/asset.py:221-226 | equality raises exactly when one side is an Asset/AssetVersion and the other is not of its class; AssetVersions compare by (slot, version), Assets by slot; when it answers, it answers true iff the items are identical |
| Containers.PyEqSymmetric | vk_pipeline_core/src/VK/pipeline/core/assets/asset.py:133-137 | `a == b` and `b == a` give the same answer or both raise |
| Containers.NewContainer | assets/container.py:5-7 | a new container is empty; only the base class has no type, and FileContainer has the File type |
| Containers.IsValid | vk_pipeline_core/src/VK/pipeline/core/assets/asset.py:250-268 | only the base class raises (NotImplementedError); a FileContainer accepts exactly strings, the newer AssetContainer exactly AssetVersions, the older one exactly Assets, and numbers and None fit no class |
| Containers.Find | vk_pipeline_core/src/VK/pipeline/core/assets/asset.py:253-275 | the base class raises; a FileContainer answers the item itself exactly when it is present and None otherwise; AssetContainers answer a list drawn from the contents, which for AssetVersions is non-empty iff the item is present |
| Containers.AllValid | assets/container.py:13-15 | the filter test holds iff every element is valid for the container's class; it cannot raise for a concrete class |
| Containers.SetContents | assets/container.py:12-16 | all-or-nothing: all-valid contents are installed whole, otherwise the container is unchanged; validity is preserved |
| Containers.Contains | vk_pipeline_core/src/VK/pipeline/core/assets/asset.py:253-254 | `x in xs` is exact membership for strings |
| Containers.FilterSame | vk_pipeline_core/src/VK/pipeline/core/assets/asset.py:270-275 | the matches are drawn from the contents; among AssetVersions the list is non-empty iff x is present |
| Containers.Exists | assets/container.py:32-33 | for a FileContainer, exactly membership; for both AssetContainers, true whenever it answers |
| Containers.AddContent | assets/container.py:18-20 | appends x or leaves the container as it was; it appends only a valid item not yet present; validity is preserved |
| Containers.RemoveFirst | assets/container.py:24 | `list.remove`: the result is the list minus one occurrence of x (as multisets); when no comparison raises, it succeeds iff x is present |
| Containers.RemoveContent | assets/container.py:22-24 | as written, never removes anything: when it does not raise the container is unchanged; on a valid FileContainer it raises exactly when the string is absent; the base class raises |
| Containers.RemoveIfLength | assets/container.py:23-24 | the guard `len(self._find_content(content)) == content` and `remove`, with n that length: the container changes only when the item is the number n and is present, and then loses one occurrence of it; when n is not the item it is unchanged |
| Containers.AddContentGrowsByAtMostOne | assets/container.py:18-20 | contents grow by at most one; an invalid or present item leaves them unchanged |
| Containers.FileAddContent | vk_pipeline_core/src/VK/pipeline/core/assets/asset.py:250-254 | a FileContainer appends exactly the strings it lacks, and adding twice equals adding once |
| Containers.AssetContainerNeverAdds | vk_pipeline_core/src/VK/pipeline/core/assets/asset.py:270-275 | an AssetContainer's `add_content` never changes it; the newer one never raises either |
| Containers.RemoveContentNeverRemoves | assets/container.py:22-24 | `remove_content` never removes; on a FileContainer it raises exactly when the string is absent |
| Containers.SetContentsAllOrNothing | assets/container.py:12-16 | one invalid element makes `set_contents` a no-op |
| Containers.SetType | assets/container.py:29-30 | sets the type and keeps the contents |
| Containers.Type | assets/container.py:5-7 | a fresh container has no type exactly when it is the base class, and a fresh FileContainer has the File type |
| Containers.TypeRoundTrip | assets/container.py:26-30 | `type()` after `set_type(t)` is t, contents untouched |
| Containers.Present | assets/container.py:32-33 | corrected `_exists`: exactly membership for FileContainers and the newer AssetContainer |
| Containers.AddContentCorrected | assets/container.py:18-20 | corrected `add_content`: appends a valid item iff it is absent, for every concrete class |
| Containers.RemoveContentCorrected | assets/container.py:22-24 | corrected `remove_content`: a change removes one occurrence of x; it changes the container iff x is present |
| Containers.RemoveContentKeepsPresentString | assets/container.py:23 | a FileContainer holding "a" keeps it after `remove_content("a")`, unlike the corrected guard |
| Containers.AssetContainerRefusesFirstVersion | vk_pipeline_core/src/VK/pipeline/core/assets/asset.py:270-275 | an empty AssetContainer refuses its first AssetVersion, unlike the corrected `_exists` |
| Containers.AddRemoveRoundTrip | assets/container.py:18-24 | with the corrected guards, adding an absent item and removing it restores the container, and adding is idempotent |
| Containers.RemoveFirstAppended | assets/container.py:24 | removing x from `xs + [x]` with x not in xs gives xs |
| Names.GetTokens | vk_pipeline_core/src/VK/pipeline/core/assets/utils.py:61-71 | the tokens of the first rule, in config order, whose match captures the whole slot and has tokens; `[]` iff no rule does |
| Names.PrefixMatchSkipped | vk_pipeline_core/src/VK/pipeline/core/assets/utils.py:64-67 | a rule whose match covers only a prefix of the slot is never the one selected |
| Names.LowerAlnumRun | vk_pipeline_core/src/VK/pipeline/core/assets/utils.py:75 | the greedy `[a-z0-9]` run: a prefix of lower-case letters and digits followed by no further such character |
| Names.LastOccurrenceBelow | vk_pipeline_core/src/VK/pipeline/core/assets/utils.py:75 | the last position below a bound where `/TOKEN:` starts a match, or None when there is none |
| Names.SlotParser | vk_pipeline_core/src/VK/pipeline/core/assets/utils.py:74-79 | a value is a non-empty run of lower-case letters and digits; the only error is TokenNotFound |
| Names.SlotParserReadsLastOccurrence | vk_pipeline_core/src/VK/pipeline/core/assets/utils.py:74-79 | succeeds iff some line-one `/TOKEN:` is followed by a lower-case letter or digit; the value is the run after the last such occurrence |
| Names.LegacySlotParser | assets/utils.py:58-61 | the same value, but None instead of raising |
| Names.NoSlashNoToken | vk_pipeline_core/src/VK/pipeline/core/assets/utils.py:74-79 | a slot without `/` never yields a token |
| Names.Split | vk_pipeline_core/src/VK/pipeline/core/assets/utils.py:55 | splitting on `_` gives at least one part |
| Names.SplitJoin | vk_pipeline_core/src/VK/pipeline/core/assets/utils.py:55-56 | `"_".join` of parts without `_` splits back into the same parts |
| Names.ParseAll | vk_pipeline_core/src/VK/pipeline/core/assets/utils.py:55-56 | all token values in order, or TokenNotFound iff some token is missing |
| Names.GenerateName | vk_pipeline_core/src/VK/pipeline/core/assets/utils.py:53-59 | None iff a selected token is missing from the slot; `""` when no rule selects |
| Names.NameDeterminesValues | vk_pipeline_core/src/VK/pipeline/core/assets/utils.py:53-59 | splitting a generated name on `_` gives back the token values, in token order |
| Names.GenerateNameForSlot | vk_pipeline_core/src/VK/pipeline/core/assets/utils.py:61-64 | a slot path generates as above; a slot without id raises unless there are no rules |
| Names.LegacyGenerateName | assets/utils.py:41-43 | raises iff the newer generator yields None, and otherwise gives the same name |
| Assets.ContainerFactory | vk_pipeline_core/src/VK/pipeline/core/assets/asset.py:293-302 | no container iff the type is None; otherwise an empty valid container of that type and class |
| Assets.Contents | vk_pipeline_core/src/VK/pipeline/core/assets/asset.py:177-178 | None exactly when the version has no container; a valid FileContainer yields only strings and a valid AssetContainer only AssetVersions |
| Assets.AddEach | vk_pipeline_core/src/VK/pipeline/core/assets/asset.py:262-265 | adding stored JSON values to an AssetContainer leaves it unchanged |
| Assets.Fill | vk_pipeline_core/src/VK/pipeline/core/assets/asset.py:246-265 | a FileContainer takes the stored list when it is all strings and otherwise keeps its contents; an AssetContainer stays as it was; class, type and validity are kept |
| Assets.LoadContents | vk_pipeline_core/src/VK/pipeline/core/assets/asset.py:246-265 | succeeds iff the store read does (else BadVersionKey), and then fills the container with the stored list |
| Assets.InitVersion | vk_pipeline_core/src/VK/pipeline/core/assets/asset.py:197-207 | a built version has the given owner and number, no dependencies, no cached name, and a container of the slot's type |
| Assets.IsNew | vk_pipeline_core/src/VK/pipeline/core/assets/asset.py:218-219 | a slot without store entry is always new, and a new version has no stored contents and no stored dependencies |
| Assets.NewVersionContents | vk_pipeline_core/src/VK/pipeline/core/assets/asset.py:199-204 | a new version needs non-empty contents (else InitializationFailed) and a typed slot, and holds the given contents iff all are valid |
| Assets.StoredVersionContents | vk_pipeline_core/src/VK/pipeline/core/assets/asset.py:197-207 | a version that is not new is built exactly as without contents, whatever contents are given; it builds iff the store read succeeds and the slot is typed, and then holds its stored strings, or nothing for Asset slots |
| Wrappers.Collect | vk_pipeline_core/src/VK/pipeline/core/assets/asset.py:116-122 | a loop that raises on its first error: it succeeds iff every step does, with every value in order; otherwise it fails with the error of the first failing step |
| Assets.LoadVersions | vk_pipeline_core/src/VK/pipeline/core/assets/asset.py:116-122 | one AssetVersion per key, in the order given, each as its constructor builds it |
| Assets.Load | vk_pipeline_core/src/VK/pipeline/core/assets/asset.py:101-131 | no entry gives an empty history; DataMismatch iff the entry's type is not the slot's declared one; `latest_version` is the last loaded number; the cached name is the generated one, and loading fails when generation does |
| Assets.Version | vk_pipeline_core/src/VK/pipeline/core/assets/asset.py:81-86 | None iff no version has number n; otherwise the first one that has it |
| Assets.AddVersion | vk_pipeline_core/src/VK/pipeline/core/assets/asset.py:91-99 | appends version `latest+1` built from the contents and bumps `latest`, earlier versions untouched; fails iff that version cannot be built |
| Assets.AssetEquals | vk_pipeline_core/src/VK/pipeline/core/assets/asset.py:133-137 | Assets compare by slot id; any other operand raises |
| Assets.Matching | vk_pipeline_core/src/VK/pipeline/core/assets/asset.py:214-216 | exactly the versions numbered n: each one returned is in the list with number n, and each listed version numbered n is returned |
| Assets.ResolveOne | vk_pipeline_core/src/VK/pipeline/core/assets/asset.py:210-216 | a pair resolves iff loading its slot, typed as stored and unnamed, succeeds; then to the loaded versions with the pair's number, else to the load's error |
| Assets.Resolve | vk_pipeline_core/src/VK/pipeline/core/assets/asset.py:209-216 | the lists of the pairs before the first that raises, concatenated, with that pair's error, or no error when none raises |
| Assets.ResolveOneOwners | vk_pipeline_core/src/VK/pipeline/core/assets/asset.py:210-216 | every version a pair resolves to has the pair's slot and number |
| Wrappers.Gather | vk_pipeline_core/src/VK/pipeline/core/assets/asset.py:209-216 | a loop that appends as it goes: the result is the concatenated values of the steps before the first failure, with that failure's error, or no error when every step succeeds |
| Assets.ResolvedFromPairs | vk_pipeline_core/src/VK/pipeline/core/assets/asset.py:209-216 | every AssetVersion `_load_dependencies` appends is the (slot, number) of some stored pair |
| Assets.Dependencies | vk_pipeline_core/src/VK/pipeline/core/assets/asset.py:183-189 | memoized: a resolved cell answers its list unchanged; a first call generates the name first and raises its error before reading anything; it only appends, and marks the cell resolved iff it succeeds |
| Assets.AddDependency | vk_pipeline_core/src/VK/pipeline/core/assets/asset.py:191-195 | appends `other` iff no listed dependency has its (slot, version); afterwards one does |
| Assets.VersionEquals | vk_pipeline_core/src/VK/pipeline/core/assets/asset.py:221-226 | AssetVersions compare by (slot, version); any other operand raises |
| Assets.BaseName | vk_pipeline_core/src/VK/pipeline/core/assets/asset.py:47-50 | a non-empty cached name is kept; None or `""` is replaced by the generated name |
| Assets.VersionName | vk_pipeline_core/src/VK/pipeline/core/assets/asset.py:172-175 | succeeds iff the base name can be generated, caches exactly that base name and nothing else, and the name ends with `_v` and the version number |
| Assets.LoadWithoutEntry | vk_pipeline_core/src/VK/pipeline/core/assets/asset.py:101-104 | a slot without store entry loads with no versions, `latest_version` 0, `version(n)` None for every n and the generated name, or raises when the name cannot be generated |
| Assets.UnnamedAssetWithoutId | vk_pipeline_core/src/VK/pipeline/core/assets/asset.py:101-104 | an unnamed Asset whose slot has no id cannot be built once naming rules are configured: generating the name for the warning raises |
| Assets.LoadMismatch | vk_pipeline_core/src/VK/pipeline/core/assets/asset.py:101-114 | loading raises DataMismatch iff an entry exists whose type differs from the declared one; a failing name never raises DataMismatch |
| Assets.StoredVersionLoads | vk_pipeline_core/src/VK/pipeline/core/assets/asset.py:197-207 | a version whose key is stored is not new and builds without error |
| Assets.LoadVersionsSucceed | vk_pipeline_core/src/VK/pipeline/core/assets/asset.py:117-123 | loading any list of stored keys succeeds |
| Assets.LoadFollowsStoreOrder | vk_pipeline_core/src/VK/pipeline/core/assets/asset.py:117-131 | a well-formed entry always loads (its slot has an id, so the name is generated), with one version per stored key in the order the versions dict iterates, and `latest_version` the last key visited, not a maximum |
| Assets.LoadInAnyListedOrder | vk_pipeline_core/src/VK/pipeline/core/assets/asset.py:117-125 | for every listing of the stored keys some iteration order loads the versions in that listing, the last becoming `latest_version` |
| Assets.VersionsFollowKeys | vk_pipeline_core/src/VK/pipeline/core/assets/asset.py:117-122 | each loaded version carries its key's number and the asset's slot |
| Assets.LoadOwners | vk_pipeline_core/src/VK/pipeline/core/assets/asset.py:117-122 | every version a loaded asset holds belongs to its slot |
| Assets.AddVersionKeepsNumbering | vk_pipeline_core/src/VK/pipeline/core/assets/asset.py:91-99 | a history numbered 1..n stays numbered 1..n+1 with `latest_version` n+1 |
| Assets.AddVersionOntoStoredVersion | vk_pipeline_core/src/VK/pipeline/core/assets/asset.py:91-99 | when `latest_version + 1` is already stored, `add_version(c)` gives the same result whatever c is |
| Assets.AddVersionOnNewSlot | vk_pipeline_core/src/VK/pipeline/core/assets/asset.py:91-99 | on a slot without entry, empty contents fail with InitializationFailed, non-empty contents succeed, and strings are kept |
| Assets.ContentsRoundTrip | vk_pipeline_core/src/VK/pipeline/core/assets/asset.py:197-207 | strings given to a new file version are what it exposes; and when the store holds them as the `"contents"` of the record under `str(version)` in a versions object keyed by `str(n)`, loading that version exposes the same strings |
| Assets.LoadDecimalKeyed | vk_pipeline_core/src/VK/pipeline/core/assets/asset.py:101-131 | a slot stored with its declared type and versions keyed by `str(n)` for distinct n loads with exactly one version per stored number, each built from its own record |
| Assets.DependenciesMemoized | vk_pipeline_core/src/VK/pipeline/core/assets/asset.py:183-189 | a resolved cell answers the same list whatever the store or the context holds |
| Assets.DependenciesIdempotent | vk_pipeline_core/src/VK/pipeline/core/assets/asset.py:183-189 | after a successful call, calling again against any store returns the same list and state |
| Assets.DependenciesFirstCall | vk_pipeline_core/src/VK/pipeline/core/assets/asset.py:183-189 | a first call whose store read raises appends nothing; otherwise it appends exactly the concatenated lists of the pairs before the first that raises, and it succeeds, with the whole list, iff no pair raises, else fails with that pair's error |
| Assets.DependenciesNeedAName | vk_pipeline_core/src/VK/pipeline/core/assets/asset.py:183-185 | on an unnamed version whose slot has no id, a first call raises before reading anything once naming rules are configured |
| Assets.DependenciesComeFromStore | vk_pipeline_core/src/VK/pipeline/core/assets/asset.py:209-216 | every appended dependency is the (slot, number) of a stored pair |
| Assets.DependencyOnUnknownSlot | vk_pipeline_core/src/VK/pipeline/core/assets/asset.py:210-216 | a pair naming a slot with no entry contributes nothing |
| Assets.DependencyOnUntypedSlot | vk_pipeline_core/src/VK/pipeline/core/assets/asset.py:211-213 | a pair naming an untyped slot raises DataMismatch |
| Assets.LoadedHistory | vk_pipeline_core/src/VK/pipeline/core/assets/asset.py:101-131 | a well-formed entry loads to exactly its versions, the last as latest, and the generated name |
| Assets.DependencyOnStoredVersion | vk_pipeline_core/src/VK/pipeline/core/assets/asset.py:209-216 | a pair (B, n) with n stored for B resolves to exactly one AssetVersion, equal to (B, n), loaded as B's version n, whatever the iteration order |
| Assets.DistinctNumbers | vk_pipeline_core/src/VK/pipeline/core/assets/asset.py:117-123 | a loaded history has one version per stored key and no two share a number |
| Assets.MatchingDistinct | vk_pipeline_core/src/VK/pipeline/core/assets/asset.py:214-216 | with distinct numbers, the versions numbered n are just the one at n's position |
| Assets.AddDependencyIdempotent | vk_pipeline_core/src/VK/pipeline/core/assets/asset.py:191-195 | adding the same dependency twice equals adding it once |
| Assets.NamedVersionName | vk_pipeline_core/src/VK/pipeline/core/assets/asset.py:172-175 | with cached name n, the version's name is n + `_v` + its number |
| Assets.UnnamedVersionName | vk_pipeline_core/src/VK/pipeline/core/assets/asset.py:47-50 | without a usable cached name, a version's name is the generated name + `_v` + its number, `None_v` + its number when generation yields None, and raises when generation does |
| Assets.NameCachedWhenNonEmpty | vk_pipeline_core/src/VK/pipeline/core/assets/asset.py:47-50 | a non-empty name is reused as is; None or `""` is generated again on every call |
| LegacyAssets.ContainerFactory | assets/asset.py:219-228 | no container iff the type is None; otherwise an empty valid FileContainer or Asset-holding AssetContainer |
| LegacyAssets.LoadContainer | assets/asset.py:157-163 | no container when the store has no data for the version or an empty record; otherwise succeeds iff the version read does and the slot has a type (else BadVersionKey or RuntimeFault), and a container always has the stored type |
| LegacyAssets.LoadedContainer | assets/asset.py:157-163 | with a non-empty record, an untyped slot raises; a File slot gets a FileContainer holding the stored strings (nothing if the list holds anything else); an Asset slot gets an empty AssetContainer |
| LegacyAssets.NoData | assets/asset.py:158-160 | `not version_data` holds exactly for a missing record and for the empty record |
| LegacyAssets.NewVersion | assets/asset.py:116-126 | raises ValueError iff neither slot nor asset is given; the slot is the given one, else the asset's; the container is the loaded one |
| LegacyAssets.LoadVersions | assets/asset.py:85-92 | one AssetVersion per key, each exactly what the constructor builds for that key with the asset's slot; succeeds iff every constructor call does |
| LegacyAssets.Load | assets/asset.py:77-94 | no entry gives an empty history; DataIntegrity iff the entry's type is not the declared one; a matching entry without `"versions"` raises (iterating None); otherwise the versions are what the constructor builds for each key, in the versions dict's iteration order; `latest_version` is the last loaded number |
| LegacyAssets.Version | assets/asset.py:60-65 | None iff no version has number n; otherwise the first one that has it |
| LegacyAssets.AddVersion | assets/asset.py:67-75 | appends exactly what the constructor builds for version `latest+1` with the asset's slot, bumps `latest`, and fails iff that constructor does; a version without store data has no contents |
| LegacyAssets.AssetEquals | assets/asset.py:96-100 | Assets compare by slot id; any other operand raises |
| LegacyAssets.VersionEquals | assets/asset.py:165-169 | AssetVersions compare by (slot, version); any other operand raises |
| LegacyAssets.Resolve | assets/asset.py:152-155 | the k-th new dependency is the AssetVersion the constructor builds for the k-th stored pair; all pairs when nothing raises, and otherwise the error is that of the first pair whose constructor raises |
| LegacyAssets.Bare | assets/asset.py:154-155 | `AssetVersion(slot=dep[0], version=dep[1])` has the pair's slot and number |
| LegacyAssets.Dependencies | assets/asset.py:143-155 | memoized: a resolved cell answers its list unchanged; a first call whose store read raises changes nothing, otherwise it appends the resolved versions and succeeds, marking the cell resolved, iff every pair's constructor succeeds |
| LegacyAssets.AddDependency | assets/asset.py:149-150 | `add_dependency` leaves the AssetVersion unchanged |
| LegacyAssets.Contents | assets/asset.py:137-138 | None exactly when the version has no container; a valid FileContainer yields only strings and a valid AssetContainer only Assets |
| LegacyAssets.NoDataNoContents | assets/asset.py:157-160 | a version the store has no data for builds, and its `contents()` is None |
| LegacyAssets.DependenciesAreStoredPairs | assets/asset.py:152-155 | a first successful call appends one AssetVersion per stored pair, equal to it, and later calls return the same answer against any store |
| LegacyAssets.DependenciesOnUnstoredVersions | assets/asset.py:143-160 | when no stored pair names a version with store data, the first call succeeds and appends one AssetVersion per pair, equal to it, without contents |
| LegacyAssets.StoredVersionLoads | assets/asset.py:85-92 | a version whose key is stored for a typed slot builds, with contents exactly when its record is non-empty |
| LegacyAssets.LoadVersionsSucceed | assets/asset.py:85-92 | building any list of stored keys succeeds |
| LegacyAssets.LoadSucceeds | assets/asset.py:77-94 | an entry with the declared type and well-formed version keys loads, one AssetVersion per stored key |
| LegacyAssets.AddVersionKeepsNumbering | assets/asset.py:67-75 | a history numbered 1..n stays numbered 1..n+1 with `latest_version` n+1 |
| LegacyAssets.MismatchAcrossRevisions | assets/asset.py:82-83 | both revisions refuse the same slots on a type mismatch, the older with DataIntegrity |
| Registry.FindItem | assets/registry.py:42-44 | the registered item, or None exactly when the key is not registered |
| Registry.Register | assets/registry.py:32-35 | the item's slot becomes registered, a previous item there is kept, no other key changes |
| Registry.Unregister | assets/registry.py:37-40 | the item's slot becomes unregistered and nothing else changes |
| Registry.RegisterThenFind | assets/registry.py:32-44 | after `register(x)`, `find_item(x.slot())` is x or the earlier item, and registering again changes nothing |
| Registry.FirstRegistrationWins | assets/registry.py:34-35 | a second item with a registered slot does not replace the first |
| Registry.UnregisterBySlot | assets/registry.py:39-40 | any item sharing the registered item's slot unregisters it |
| Registry.RegisterUnregisterRoundTrip | assets/registry.py:32-40 | registering under a free slot then unregistering restores the table |
| Registry.UnregisterRegisterRoundTrip | assets/registry.py:32-40 | unregistering the stored item then registering it again restores the table |

## Findings

| source | as written | input that shows it | evidently intended | confidence | as-written member | corrected member |
|---|---|---|---|---|---|---|
| assets/container.py:23 | `remove_content` removes only when `len(self._find_content(content)) == content`, a comparison of a length with the item | a FileContainer holding `["a"]`, then `remove_content("a")`: the length 1 is not `"a"`, so `"a"` stays | remove the item when `_find_content` finds it, and do nothing when it is absent | not executed; high | Containers.RemoveContentKeepsPresentString | Containers.RemoveContentCorrected |
| vk_pipeline_core/src/VK/pipeline/core/assets/asset.py:270-275 | the AssetContainer's `_find_content` returns a list, and `_exists` tests it with `is not None` | an empty AssetContainer, then `add_content(v)` for an AssetVersion v: `[]` is not None, so v is taken as present and never added | an empty list of matches means absent | not executed; high | Containers.AssetContainerRefusesFirstVersion | Containers.AddContentCorrected |

The as-written guards are `Containers.RemoveContent` and `Containers.AddContent`, and `Containers.RemoveContentNeverRemoves` and `Containers.AssetContainerNeverAdds` state their general effect. `Containers.AddRemoveRoundTrip` proves the intended add/remove round trip for the corrected pair. `Assets.AddEach` loads AssetContainers through `Containers.AddContentCorrected`. This changes nothing observable, because stored JSON values are never Assets or AssetVersions and are rejected before `_exists` runs. The older AssetContainer's `_find_content` has the same flaw at assets/asset.py:211-216. It also calls `version()` with no argument on Assets, whose `version` method requires one, so that call raises TypeError. `Containers.AddContentCorrected` therefore corrects it only for items whose slot is absent.

## Left out

- **Logging.** The output of every `logger` call is left out, with the zero-contents warning of `CheckZeroContents`. The `self.name()` calls passed to `.format` run before the logger is called and are modelled. `logger.info(self)` in `Asset._load_versions` formats lazily: logging swallows an error raised there, and any name it caches is the one the later `self.name()` generates.
- **Name rule configuration.** Reading the config file (the environment variable, `os.path.exists`, `json.load`) is left out. The rules are a parameter of `Names.NameConfig`, listed in the dict's iteration order.
- **Regex engine.** The rule regexes are not interpreted. `Names.Matcher` gives the text `re.match` captures. A token is taken as literal text, not as a regex fragment.
- **Singletons.** The singletons (`Store.__new__`, `Registry.__new__`) and the abstract `Registry` base are left out. Their state is a parameter here.
- **Python 2 strings.** `str` and `unicode` are not distinguished; both are `Text`.
- **`int(key)` edge cases.** Surrounding whitespace is not modelled, and neither are decimal digits outside ASCII `0`-`9`, which Python 2 `int()` accepts in the `unicode` keys `json.load` produces. Those keys fail with BadVersionKey here, while Python would accept them.
- **Dictionary order.** The hash-table order itself is not computed. It is the `order` of `Assets.Context`, or the parameter of `LegacyAssets.Load`, so every property holds for any iteration order.
- Assets.AddDependency: takes an AssetVersion. A foreign argument is not modelled: Python appends it when no dependency is listed yet, and otherwise the first comparison raises TypeError.
- **JSON values.** Only strings, numbers and null are modelled as contents. JSON booleans, lists and objects, and malformed records such as a non-list `"contents"`, are left out.
- **Version record shapes.** A version record holds only its `"contents"` and `"dependencies"` keys. A record with other keys only (such as `{"note": 1}`) is truthy in Python, so the older `_load_container` would build a container for it, but here it is the empty record and `LegacyAssets.NoData` holds. A JSON `null` version record is not representable either: the newer revision would find the version new and raise AssetVersionInitializationException when loading, and the older one would build no container.
- **Aliasing.** A caller holding the list returned by `contents()`, `versions()` or `dependencies()` and mutating it is not modelled.
- **AssetVersion accessors.** `AssetVersion.asset()` is left out: the newer revision only returns the owner, and the older one builds a fresh Asset. The older `set_version` is also left out.
- **`__str__`, `__repr__` and `set_name`.** These are left out; they only format or overwrite fields.
- **`Slots.NewSlot`.** It ignores keyword arguments other than `path` and `type`, as the source does.
- **`Store.LoadData`.** The JSON file read is a parameter (`readJson`).
- **`LegacyAssets.Load`.** It builds each AssetVersion from the slot id alone. The Asset is passed to the constructor, which only uses its `slot()`, while the older revision also stores the Asset object; that back-reference is left out.
- **Older dependency pairs.** A stored pair's slot is always a string, so the older revision's `ValueError` for a None slot in a dependency pair cannot arise.
- **`DataIntegrityException`.** The older revision imports it from `assets/exceptions.py`, which does not define it. The model treats it as a distinct exception, `DataIntegrity`.

=== FILE: asset.dfy ===
/** Asset and AssetVersion of the newer revision (core/assets/asset.py).
    An Asset is a slot plus its ordered version history; an AssetVersion is the
    (slot, version) snapshot holding a typed container and a lazily resolved
    dependency list. Python objects that mutate become records, and every
    operation returns the updated record, or the exception raised. */
module Assets {
  import opened Wrappers
  import opened Errors
  import opened Slots
  import opened Containers
  import Store
  import Names

  /** One committed (or new) version of an asset. `owner` is the slot of the Asset
      it belongs to; `deps` with `depsLoaded` is the memoized dependency cell, and
      `name` the cached name (None until generated or set). */
  datatype AssetVersion = AssetVersion(
    owner: Slot,
    version: int,
    container: Option<Container>,
    deps: seq<AssetVersion>,
    depsLoaded: bool,
    name: Option<string>)

  /** An asset: the slot, the versions in the order they were appended, the
      number of the last one appended, and the cached name. */
  datatype Asset = Asset(slot: Slot, versions: seq<AssetVersion>, latest: int, name: Option<string>)

  /** What the Python code reads from its surroundings besides the store: the
      naming configuration `name()` generates from, and the order in which
      dictionaries with integer keys are iterated. */
  datatype Context = Context(cfg: Names.NameConfig, order: Store.DictOrder)

  /** The identity `AssetVersion.__eq__` compares: (slot id, version). */
  function Ref(v: AssetVersion): Item {
    VersionRef(v.owner.id, v.version)
  }

  /** `contents()`: None without a container, else the container's contents. */
  function Contents(v: AssetVersion): (r: Option<seq<Item>>)
    ensures r.None? <==> v.container.None?
    ensures r.Some? && Valid(v.container.value) && v.container.value.variant == FileVariant ==>
              forall i :: 0 <= i < |r.value| ==> r.value[i].Text?
    ensures r.Some? && Valid(v.container.value) && v.container.value.variant == VersionVariant ==>
              forall i :: 0 <= i < |r.value| ==> r.value[i].VersionRef?
  {
    match v.container
    case None => None
    case Some(c) => Some(c.contents)
  }

  // ---------------------------------------------------------------------------
  // Containers of a version
  // ---------------------------------------------------------------------------

  /** `container_factory(type)`: a FileContainer for File, an AssetContainer for
      Asset, and None for any other type. */
  function ContainerFactory(kind: Option<ContentKind>): (c: Option<Container>)
    ensures c.None? <==> kind.None?
    ensures c.Some? ==> c.value.contents == [] && c.value.kind == kind && Valid(c.value)
    ensures kind == Some(FileKind) ==> c.value.variant == FileVariant
    ensures kind == Some(AssetKind) ==> c.value.variant == VersionVariant
  {
    match kind
    case None => None
    case Some(FileKind) => Some(NewContainer(FileVariant))
    case Some(AssetKind) => Some(NewContainer(VersionVariant))
  }

  /** A JSON value from the store, as the Python value the container sees. */
  function FromJson(j: Store.Json): Item {
    match j
    case JString(s) => Text(s)
    case JNumber(n) => Number(n)
    case JNull => Null
  }

  function FromJsonList(js: seq<Store.Json>): (items: seq<Item>)
    ensures |items| == |js|
    ensures forall i :: 0 <= i < |js| ==> items[i] == FromJson(js[i])
  {
    seq(|js|, i requires 0 <= i < |js| => FromJson(js[i]))
  }

  /** `for item in items: self.add_content(item)`, with the corrected `_exists`. */
  function AddEach(c: Container, items: seq<Item>): (r: Fallible<Container>)
    ensures Valid(c) && (c.variant == VersionVariant || c.variant == AssetVariant) &&
            (forall i :: 0 <= i < |items| ==> !items[i].VersionRef? && !items[i].AssetRef?) ==>
              r == Success(c)
    decreases |items|
  {
    if |items| == 0 then Success(c)
    else
      var c' :- AddContentCorrected(c, items[0]);
      AddEach(c', items[1..])
  }

  /** What `load_contents` does with the stored list: FileContainer bulk-sets it; an
      AssetContainer adds the items one by one, and since JSON values are never
      Assets or AssetVersions it adds none of them. */
  function Fill(c: Container, raw: seq<Store.Json>): (r: Container)
    requires c.variant != BaseVariant
    requires Valid(c)
    ensures r.variant == c.variant && r.kind == c.kind && Valid(r)
    ensures c.variant == FileVariant ==>
              var items := FromJsonList(raw);
              r.contents == (if forall i :: 0 <= i < |items| ==> items[i].Text? then items else c.contents)
    ensures c.variant != FileVariant ==> r == c
  {
    var items := FromJsonList(raw);
    if c.variant == FileVariant then
      assert (forall i :: 0 <= i < |items| ==> items[i].Text?) <==>
             (forall i :: 0 <= i < |items| ==> IsValid(c.variant, items[i]) == Success(true));
      SetContents(c, items).value
    else
      assert forall i :: 0 <= i < |items| ==> !items[i].VersionRef? && !items[i].AssetRef?;
      AddEach(c, items).value
  }

  /** `load_contents(slot, version)`: reads the version's stored contents and fills
      the container with them; only the store read can fail. */
  function LoadContents(data: Store.Data, c: Container, slot: Option<string>, version: int): (r: Fallible<Container>)
    requires c.variant != BaseVariant
    requires Valid(c)
    ensures r.Success? <==> Store.GetContentData(data, slot, version).Success?
    ensures r.Success? ==> r.value == Fill(c, Store.GetContentData(data, slot, version).value)
    ensures r.Failure? ==> r.error == BadVersionKey
  {
    match Store.GetContentData(data, slot, version)
    case Failure(e) => Failure(e)
    case Success(raw) => Success(Fill(c, raw))
  }

  // ---------------------------------------------------------------------------
  // AssetVersion construction
  // ---------------------------------------------------------------------------

  /** `_is_new_version()`: the store holds no data for (slot, version). */
  predicate IsNew(data: Store.Data, owner: Slot, version: int)
    ensures Store.GetEntries(data, owner.id).None? ==> IsNew(data, owner, version)
    ensures IsNew(data, owner, version) ==>
              Store.GetContentData(data, owner.id, version) == Success([]) &&
              Store.GetDependencyData(data, owner.id, version) == Success([])
  {
    Store.GetVersionData(data, owner.id, version) == Success(None)
  }

  /** `AssetVersion(asset, version, contents)`: builds the container for the slot's
      type; a new version bulk-sets the given contents (which must be non-empty) and
      reads nothing else, an existing one loads its contents from the store. */
  function InitVersion(data: Store.Data, owner: Slot, version: int, contents: seq<Item>): (r: Fallible<AssetVersion>)
    ensures r.Success? ==> r.value.owner == owner && r.value.version == version
    ensures r.Success? ==> r.value.deps == [] && !r.value.depsLoaded && r.value.name.None?
    ensures r.Success? ==> r.value.container.Some? && r.value.container.value.kind == owner.kind
  {
    var c := ContainerFactory(owner.kind);
    var record :- Store.GetVersionData(data, owner.id, version);
    if record.None? then
      if contents == [] then Failure(InitializationFailed)
      else if c.None? then Failure(RuntimeFault)
      else
        match SetContents(c.value, contents)
        case Failure(e) => Failure(e)
        case Success(filled) => Success(AssetVersion(owner, version, Some(filled), [], false, None))
    else if c.None? then Failure(RuntimeFault)
    else
      match LoadContents(data, c.value, owner.id, version)
      case Failure(e) => Failure(e)
      case Success(loaded) => Success(AssetVersion(owner, version, Some(loaded), [], false, None))
  }

  /** A new version needs non-empty contents (else AssetVersionInitializationException)
      and a typed slot, and holds the given contents exactly when every item fits
      the slot's container. */
  lemma NewVersionContents(data: Store.Data, owner: Slot, version: int, contents: seq<Item>)
    requires IsNew(data, owner, version)
    ensures InitVersion(data, owner, version, contents) == Failure(InitializationFailed) <==> contents == []
    ensures contents != [] && owner.kind.None? ==> InitVersion(data, owner, version, contents) == Failure(RuntimeFault)
    ensures contents != [] && owner.kind.Some? ==>
              var r := InitVersion(data, owner, version, contents);
              r.Success? &&
              (Contents(r.value) == Some(contents) <==>
                 forall i :: 0 <= i < |contents| ==> IsValid(r.value.container.value.variant, contents[i]) == Success(true))
  {
  }

  /** A version that is not new ignores the contents argument altogether: it is
      built (or raises) exactly as without contents. It builds iff the store read
      succeeds and the slot is typed, and then holds what the store lists: the
      strings of a File slot's list (or nothing if the list holds anything else),
      and nothing for an Asset slot. */
  lemma StoredVersionContents(data: Store.Data, owner: Slot, version: int, contents: seq<Item>)
    requires !IsNew(data, owner, version)
    ensures InitVersion(data, owner, version, contents) == InitVersion(data, owner, version, [])
    ensures InitVersion(data, owner, version, contents).Success? <==>
              Store.GetVersionData(data, owner.id, version).Success? && owner.kind.Some?
    ensures owner.kind == Some(FileKind) && InitVersion(data, owner, version, contents).Success? ==>
              Store.GetContentData(data, owner.id, version).Success? &&
              var items := FromJsonList(Store.GetContentData(data, owner.id, version).value);
              Contents(InitVersion(data, owner, version, contents).value) ==
                Some(if forall i :: 0 <= i < |items| ==> items[i].Text? then items else [])
    ensures owner.kind == Some(AssetKind) && InitVersion(data, owner, version, contents).Success? ==>
              Contents(InitVersion(data, owner, version, contents).value) == Some([])
  {
  }

  // ---------------------------------------------------------------------------
  // Asset loading
  // ---------------------------------------------------------------------------

  /** The test `asset_type != self.slot_type()` fails only when the slot has a type
      and the store holds the same one: `slot_type()` is `str(type)`, so a slot
      without type is "None", which no stored type equals. */
  predicate KindMatches(stored: Option<ContentKind>, declared: Option<ContentKind>) {
    declared.Some? && stored == declared
  }

  /** One AssetVersion per key, in the order the keys are given. */
  function LoadVersions(data: Store.Data, slot: Slot, keys: seq<int>): (r: Fallible<seq<AssetVersion>>)
    ensures r.Success? ==> |r.value| == |keys|
    ensures r.Success? ==> forall i :: 0 <= i < |keys| ==> InitVersion(data, slot, keys[i], []) == Success(r.value[i])
  {
    Collect(seq(|keys|, i requires 0 <= i < |keys| => InitVersion(data, slot, keys[i], [])))
  }

  /** The number of the last element, or 0 for an empty history. */
  function LastNumber(vs: seq<AssetVersion>): int {
    if |vs| == 0 then 0 else vs[|vs| - 1].version
  }

  /** `Asset(slot, name)`: loads the version history of the slot from the store,
      iterating the versions dictionary in the context's order. Both log calls that
      format `self.name()` eagerly run it, so the name is generated (and cached)
      on every path that does not raise first. */
  function Load(ctx: Context, data: Store.Data, slot: Slot, name: Option<string>): (r: Fallible<Asset>)
    ensures r.Success? ==> r.value.slot == slot
    ensures r.Success? ==> r.value.latest == LastNumber(r.value.versions)
    ensures r.Success? ==> BaseName(ctx.cfg, name, slot.id) == Success(r.value.name)
  {
    if Store.GetEntries(data, slot.id).None? then
      var n :- BaseName(ctx.cfg, name, slot.id);
      Success(Asset(slot, [], 0, n))
    else if !KindMatches(Store.GetTypeData(data, slot.id), slot.kind) then Failure(DataMismatch)
    else
      var m :- Store.GetVersionsData(data, slot.id);
      match m
      case None => Failure(RuntimeFault)
      case Some(vm) =>
        var vs :- LoadVersions(data, slot, Store.Iterate(ctx.order, vm));
        var n :- BaseName(ctx.cfg, name, slot.id);
        Success(Asset(slot, vs, LastNumber(vs), n))
  }

  /** `version(n)`: the first element whose number is n, else None. */
  function Version(a: Asset, n: int): (r: Option<AssetVersion>)
    ensures r.None? <==> forall i :: 0 <= i < |a.versions| ==> a.versions[i].version != n
    ensures r.Some? ==> exists i :: 0 <= i < |a.versions| && a.versions[i] == r.value && r.value.version == n &&
                                   forall j :: 0 <= j < i ==> a.versions[j].version != n
  {
    FirstNumbered(a.versions, n)
  }

  function FirstNumbered(vs: seq<AssetVersion>, n: int): (r: Option<AssetVersion>)
    ensures r.None? <==> forall i :: 0 <= i < |vs| ==> vs[i].version != n
    ensures r.Some? ==> exists i :: 0 <= i < |vs| && vs[i] == r.value && r.value.version == n &&
                                   forall j :: 0 <= j < i ==> vs[j].version != n
    decreases |vs|
  {
    if |vs| == 0 then None
    else if vs[0].version == n then Some(vs[0])
    else
      var r := FirstNumbered(vs[1..], n);
      assert forall i :: 1 <= i < |vs| ==> vs[i] == vs[1..][i - 1];
      r
  }

  /** `add_version(contents)`: appends a version numbered `latest_version + 1` and
      raises `latest_version` by one; the earlier versions are untouched. When the
      AssetVersion cannot be built, the asset is left as it was. */
  function AddVersion(data: Store.Data, a: Asset, contents: seq<Item>): (r: Fallible<Asset>)
    ensures r.Success? ==> r.value.slot == a.slot && r.value.latest == a.latest + 1
    ensures r.Success? ==> |r.value.versions| == |a.versions| + 1 && r.value.versions[..|a.versions|] == a.versions
    ensures r.Success? ==> r.value.versions[|a.versions|].version == a.latest + 1
    ensures r.Success? ==> InitVersion(data, a.slot, a.latest + 1, contents) == Success(r.value.versions[|a.versions|])
    ensures r.Failure? <==> InitVersion(data, a.slot, a.latest + 1, contents).Failure?
  {
    var v :- InitVersion(data, a.slot, a.latest + 1, contents);
    Success(a.(versions := a.versions + [v], latest := a.latest + 1))
  }

  /** `Asset.__eq__`: Assets compare by slot id; any other operand raises TypeError. */
  function AssetEquals(a: Asset, other: Item): (r: Fallible<bool>)
    ensures r.Failure? <==> !other.AssetRef?
    ensures other.AssetRef? ==> r == Success(a.slot.id == other.slot)
  {
    PyEq(AssetRef(a.slot.id), other)
  }

  // ---------------------------------------------------------------------------
  // Dependencies
  // ---------------------------------------------------------------------------

  /** The versions of a loaded asset whose number is n (`if asset_version.version() == dep[1]`). */
  function Matching(vs: seq<AssetVersion>, n: int): (r: seq<AssetVersion>)
    ensures |r| <= |vs|
    ensures forall i :: 0 <= i < |r| ==> r[i] in vs && r[i].version == n
    ensures forall i :: 0 <= i < |vs| && vs[i].version == n ==> vs[i] in r
    ensures (forall i :: 0 <= i < |vs| ==> vs[i].version != n) ==> r == []
    decreases |vs|
  {
    if |vs| == 0 then []
    else (if vs[0].version == n then [vs[0]] else []) + Matching(vs[1..], n)
  }

  /** The Slot `_load_dependencies` builds for a stored pair: typed as the store says. */
  function PairSlot(data: Store.Data, d: Store.Dep): Slot {
    NewSlot(Some(d.slot), Store.GetTypeData(data, Some(d.slot)))
  }

  /** One stored pair [slot, version]: load the Asset of that slot and take its
      versions numbered `version`. */
  function ResolveOne(ctx: Context, data: Store.Data, d: Store.Dep): (r: Fallible<seq<AssetVersion>>)
    ensures r.Success? <==> Load(ctx, data, PairSlot(data, d), None).Success?
    ensures r.Success? ==> r.value == Matching(Load(ctx, data, PairSlot(data, d), None).value.versions, d.version)
    ensures r.Failure? ==> r.error == Load(ctx, data, PairSlot(data, d), None).error
  {
    var target :- Load(ctx, data, PairSlot(data, d), None);
    Success(Matching(target.versions, d.version))
  }

  /** The outcome of resolving each stored pair on its own. */
  function Resolutions(ctx: Context, data: Store.Data, deps: seq<Store.Dep>): (rs: seq<Fallible<seq<AssetVersion>>>)
    ensures |rs| == |deps|
    ensures forall i :: 0 <= i < |deps| ==> rs[i] == ResolveOne(ctx, data, deps[i])
  {
    seq(|deps|, i requires 0 <= i < |deps| => ResolveOne(ctx, data, deps[i]))
  }

  /** The outcome of `_load_dependencies`: what it appended before finishing or raising. */
  datatype Resolution = Resolution(found: seq<AssetVersion>, error: Option<Error>)

  /** `_load_dependencies`: resolves the stored pairs in order, appending what each
      yields, and stops at the first one that raises. */
  function Resolve(ctx: Context, data: Store.Data, deps: seq<Store.Dep>): (r: Resolution)
    ensures var rs := Resolutions(ctx, data, deps);
            var k := Successes(rs);
            r.found == Flatten(Values(rs[..k])) &&
            r.error == (if k < |rs| then Some(rs[k].error) else None)
  {
    var (found, error) := Gather(Resolutions(ctx, data, deps));
    Resolution(found, error)
  }

  /** v is the (slot, version) of some stored pair. */
  predicate FromPair(v: AssetVersion, deps: seq<Store.Dep>) {
    exists k :: 0 <= k < |deps| && v.owner.id == Some(deps[k].slot) && v.version == deps[k].version
  }

  /** Every version `_load_dependencies` appends is the (slot, version) of some stored pair. */
  lemma ResolvedFromPairs(ctx: Context, data: Store.Data, deps: seq<Store.Dep>)
    ensures forall i :: 0 <= i < |Resolve(ctx, data, deps).found| ==> FromPair(Resolve(ctx, data, deps).found[i], deps)
  {
    var rs := Resolutions(ctx, data, deps);
    var found := Resolve(ctx, data, deps).found;
    assert found == Gather(rs).0;
    forall i | 0 <= i < |found|
      ensures FromPair(found[i], deps)
    {
      var k :| 0 <= k < |rs| && rs[k].Success? && found[i] in rs[k].value;
      ResolveOneOwners(ctx, data, deps[k]);
    }
  }

  lemma ResolveOneOwners(ctx: Context, data: Store.Data, d: Store.Dep)
    requires ResolveOne(ctx, data, d).Success?
    ensures forall i :: 0 <= i < |ResolveOne(ctx, data, d).value| ==>
              ResolveOne(ctx, data, d).value[i].owner.id == Some(d.slot) &&
              ResolveOne(ctx, data, d).value[i].version == d.version
  {
    LoadOwners(ctx, data, PairSlot(data, d), None);
  }

  /** Every version a loaded asset holds belongs to its slot. */
  lemma LoadOwners(ctx: Context, data: Store.Data, slot: Slot, name: Option<string>)
    requires Load(ctx, data, slot, name).Success?
    ensures forall i :: 0 <= i < |Load(ctx, data, slot, name).value.versions| ==>
              Load(ctx, data, slot, name).value.versions[i].owner == slot
  {
    if Store.GetEntries(data, slot.id).Some? {
      var vm := Store.GetVersionsData(data, slot.id).value.value;
      var ks := Store.Iterate(ctx.order, vm);
      VersionsFollowKeys(data, slot, ks, LoadVersions(data, slot, ks).value);
    }
  }

  /** `dependencies()`: the first call formats `self.name()` for its log line (which
      generates and caches the name, or raises), then reads the stored pairs and
      appends what they resolve to; later calls return the cached list and read
      nothing. A call that raises leaves what it appended so far and the cell
      unresolved. Returns the updated AssetVersion with the call's outcome. */
  function Dependencies(ctx: Context, data: Store.Data, v: AssetVersion): (r: (AssetVersion, Fallible<seq<AssetVersion>>))
    ensures r.0 == v.(deps := r.0.deps, depsLoaded := r.0.depsLoaded, name := r.0.name)
    ensures v.depsLoaded ==> r == (v, Success(v.deps))
    ensures !v.depsLoaded && VersionName(ctx.cfg, v).Failure? ==> r == (v, Failure(VersionName(ctx.cfg, v).error))
    ensures !v.depsLoaded && VersionName(ctx.cfg, v).Success? ==> r.0.name == VersionName(ctx.cfg, v).value.0.name
    ensures |v.deps| <= |r.0.deps| && r.0.deps[..|v.deps|] == v.deps
    ensures r.1.Success? ==> r.0.depsLoaded && r.1.value == r.0.deps
    ensures r.1.Failure? ==> !r.0.depsLoaded
  {
    if v.depsLoaded then (v, Success(v.deps))
    else
      match VersionName(ctx.cfg, v)
      case Failure(e) => (v, Failure(e))
      case Success((named, _)) =>
        match Store.GetDependencyData(data, v.owner.id, v.version)
        case Failure(e) => (named, Failure(e))
        case Success(pairs) =>
          var res := Resolve(ctx, data, pairs);
          var v' := named.(deps := v.deps + res.found);
          assert v'.deps[..|v.deps|] == v.deps;
          match res.error
          case None => (v'.(depsLoaded := true), Success(v'.deps))
          case Some(e) => (v', Failure(e))
  }

  /** `add_dependency(other)`: appends other unless a dependency with the same
      (slot, version) is already listed. */
  function AddDependency(v: AssetVersion, other: AssetVersion): (r: AssetVersion)
    ensures r == v.(deps := r.deps)
    ensures r.deps == v.deps || r.deps == v.deps + [other]
    ensures r.deps == v.deps <==> exists i :: 0 <= i < |v.deps| && Ref(v.deps[i]) == Ref(other)
    ensures exists i :: 0 <= i < |r.deps| && Ref(r.deps[i]) == Ref(other)
  {
    if exists i :: 0 <= i < |v.deps| && PyEq(Ref(v.deps[i]), Ref(other)) == Success(true) then v
    else
      var r := v.(deps := v.deps + [other]);
      assert Ref(r.deps[|v.deps|]) == Ref(other);
      r
  }

  /** `AssetVersion.__eq__`: equal iff slot and version match; an operand that is not
      an AssetVersion raises TypeError. */
  function VersionEquals(v: AssetVersion, other: Item): (r: Fallible<bool>)
    ensures r.Failure? <==> !other.VersionRef?
    ensures other.VersionRef? ==> r == Success(v.owner.id == other.slot && v.version == other.version)
  {
    PyEq(Ref(v), other)
  }

  // ---------------------------------------------------------------------------
  // Names
  // ---------------------------------------------------------------------------

  /** `AssetBase.name()`: a cached name that is None or "" is (re)generated from
      the slot; the new cached value is returned. */
  function BaseName(cfg: Names.NameConfig, cached: Option<string>, slot: Option<string>): (r: Fallible<Option<string>>)
    ensures cached.Some? && cached.value != "" ==> r == Success(cached)
    ensures (cached.None? || cached.value == "") ==> r == Names.GenerateNameForSlot(cfg, slot)
  {
    if cached.Some? && cached.value != "" then Success(cached) else Names.GenerateNameForSlot(cfg, slot)
  }

  /** `AssetVersion.name()`: the base name followed by "_v" and the version number;
      a base name that stayed None prints as "None". */
  function VersionName(cfg: Names.NameConfig, v: AssetVersion): (r: Fallible<(AssetVersion, string)>)
    ensures r.Success? <==> BaseName(cfg, v.name, v.owner.id).Success?
    ensures r.Failure? ==> r.error == BaseName(cfg, v.name, v.owner.id).error
    ensures r.Success? ==> r.value.0 == v.(name := BaseName(cfg, v.name, v.owner.id).value)
    ensures r.Success? ==>
              var suffix := "_v" + Store.IntToDecimal(v.version);
              |suffix| <= |r.value.1| && r.value.1[|r.value.1| - |suffix|..] == suffix
  {
    var n :- BaseName(cfg, v.name, v.owner.id);
    var shown := if n.Some? then n.value else "None";
    Success((v.(name := n), shown + ("_v" + Store.IntToDecimal(v.version))))
  }

  // ---------------------------------------------------------------------------
  // Properties
  // ---------------------------------------------------------------------------

  /** A slot with no store entry loads as an empty history: no versions,
      `latest_version` 0, and `version(n)` None for every n. The warning logged on
      that path formats `self.name()`, so a name that cannot be generated raises
      instead. */
  lemma LoadWithoutEntry(ctx: Context, data: Store.Data, slot: Slot, name: Option<string>, n: int)
    requires Store.GetEntries(data, slot.id).None?
    ensures BaseName(ctx.cfg, name, slot.id).Success? ==>
              Load(ctx, data, slot, name) == Success(Asset(slot, [], 0, BaseName(ctx.cfg, name, slot.id).value)) &&
              Version(Load(ctx, data, slot, name).value, n).None?
    ensures BaseName(ctx.cfg, name, slot.id).Failure? ==>
              Load(ctx, data, slot, name) == Failure(BaseName(ctx.cfg, name, slot.id).error)
  {
  }

  /** An unnamed Asset whose slot has no id cannot be built once naming rules are
      configured: the slot has no store entry, and generating the name for the
      warning matches the rules against None. */
  lemma UnnamedAssetWithoutId(ctx: Context, data: Store.Data, slot: Slot, name: Option<string>)
    requires slot.id.None? && ctx.cfg.rules != []
    requires name.None? || name == Some("")
    ensures Load(ctx, data, slot, name) == Failure(RuntimeFault)
  {
  }

  /** Loading raises DataMismatchException exactly when the slot has a store entry
      whose type is not the slot's declared type; no Asset is produced then. */
  lemma LoadMismatch(ctx: Context, data: Store.Data, slot: Slot, name: Option<string>)
    ensures Load(ctx, data, slot, name) == Failure(DataMismatch) <==>
              Store.GetEntries(data, slot.id).Some? && !KindMatches(Store.GetTypeData(data, slot.id), slot.kind)
  {
    if Store.GetEntries(data, slot.id).Some? && KindMatches(Store.GetTypeData(data, slot.id), slot.kind) {
      match Store.GetVersionsData(data, slot.id)
      case Failure(_) =>
      case Success(None) =>
      case Success(Some(vm)) =>
        LoadVersionsSucceed(data, slot, vm, Store.Iterate(ctx.order, vm));
    }
  }

  /** A version whose key is in the store loads without error. */
  lemma StoredVersionLoads(data: Store.Data, slot: Slot, vm: Store.VersionMap, k: int)
    requires slot.kind.Some?
    requires Store.GetVersionsData(data, slot.id) == Success(Some(vm))
    requires k in Store.Keys(vm)
    ensures InitVersion(data, slot, k, []).Success?
    ensures !IsNew(data, slot, k)
  {
    assert Store.GetVersionData(data, slot.id, k) == Success(Store.Lookup(vm, k));
  }

  lemma {:induction false} LoadVersionsSucceed(data: Store.Data, slot: Slot, vm: Store.VersionMap, keys: seq<int>)
    requires slot.kind.Some?
    requires Store.GetVersionsData(data, slot.id) == Success(Some(vm))
    requires forall i :: 0 <= i < |keys| ==> keys[i] in Store.Keys(vm)
    ensures LoadVersions(data, slot, keys).Success?
    decreases |keys|
  {
    if |keys| > 0 {
      StoredVersionLoads(data, slot, vm, keys[0]);
      LoadVersionsSucceed(data, slot, vm, keys[1..]);
    }
  }

  /** A slot whose entry has the declared type and well-formed version keys loads
      (a slot with an entry has an id, so its name is always generated) one
      AssetVersion per stored key, in the
      order the versions dictionary iterates, and `latest_version` is the number of
      the last one appended (0 if none), not a computed maximum. */
  lemma LoadFollowsStoreOrder(ctx: Context, data: Store.Data, slot: Slot, name: Option<string>, vm: Store.VersionMap)
    requires Store.GetEntries(data, slot.id).Some?
    requires KindMatches(Store.GetTypeData(data, slot.id), slot.kind)
    requires Store.GetVersionsData(data, slot.id) == Success(Some(vm))
    ensures Load(ctx, data, slot, name).Success?
    ensures Load(ctx, data, slot, name).Success? ==>
              var a := Load(ctx, data, slot, name).value;
              var ks := Store.Iterate(ctx.order, vm);
              |a.versions| == |vm| &&
              (forall i :: 0 <= i < |vm| ==> a.versions[i].version == ks[i] && a.versions[i].owner == slot) &&
              a.latest == (if |vm| == 0 then 0 else ks[|vm| - 1])
  {
    var ks := Store.Iterate(ctx.order, vm);
    LoadVersionsSucceed(data, slot, vm, ks);
    var vs := LoadVersions(data, slot, ks).value;
    VersionsFollowKeys(data, slot, ks, vs);
    LoadedHistory(ctx, data, slot, name, vm);
    var a := Load(ctx, data, slot, name).value;
    assert a.versions == vs && |vs| == |vm|;
    assert a.latest == (if |vm| == 0 then 0 else ks[|vm| - 1]) by {
      if |vm| > 0 {
        assert LastNumber(vs) == vs[|vs| - 1].version == ks[|vm| - 1];
      }
    }
  }

  lemma VersionsFollowKeys(data: Store.Data, slot: Slot, keys: seq<int>, vs: seq<AssetVersion>)
    requires LoadVersions(data, slot, keys) == Success(vs)
    ensures |vs| == |keys|
    ensures forall i :: 0 <= i < |vs| ==> vs[i].version == keys[i] && vs[i].owner == slot
  {
    forall i | 0 <= i < |vs|
      ensures vs[i].version == keys[i] && vs[i].owner == slot
    {
      assert InitVersion(data, slot, keys[i], []) == Success(vs[i]);
    }
  }

  /** The order of the history is the dictionary's and nothing else: for every
      listing of the stored keys there is an iteration order under which the
      versions come in that listing, its last key becoming `latest_version`. */
  lemma LoadInAnyListedOrder(cfg: Names.NameConfig, data: Store.Data, slot: Slot, name: Option<string>,
                             vm: Store.VersionMap, ks: seq<int>)
    requires Store.GetEntries(data, slot.id).Some?
    requires KindMatches(Store.GetTypeData(data, slot.id), slot.kind)
    requires Store.GetVersionsData(data, slot.id) == Success(Some(vm))
    requires Store.Distinct(ks) && |ks| == |vm| && forall k :: k in ks <==> k in Store.Keys(vm)
    ensures Load(Context(cfg, Store.ListingOrder(ks)), data, slot, name).Success?
    ensures var a := Load(Context(cfg, Store.ListingOrder(ks)), data, slot, name).value;
            |a.versions| == |ks| &&
            (forall i :: 0 <= i < |ks| ==> a.versions[i].version == ks[i]) &&
            a.latest == (if |ks| == 0 then 0 else ks[|ks| - 1])
  {
    var ctx := Context(cfg, Store.ListingOrder(ks));
    assert Store.DistinctKeys(vm);
    Store.EveryListingIsAnOrder(vm, ks);
    LoadedHistory(ctx, data, slot, name, vm);
    var vs := LoadVersions(data, slot, ks).value;
    VersionsFollowKeys(data, slot, ks, vs);
    var a := Load(ctx, data, slot, name).value;
    assert a.versions == vs;
    assert a.latest == (if |ks| == 0 then 0 else ks[|ks| - 1]) by {
      if |ks| > 0 {
        assert LastNumber(vs) == vs[|vs| - 1].version;
      }
    }
  }

  /** The version history is numbered 1, 2, ..., n and `latest_version` is n. */
  predicate Numbered(a: Asset) {
    a.latest == |a.versions| && forall i :: 0 <= i < |a.versions| ==> a.versions[i].version == i + 1
  }

  /** `add_version` keeps a history numbered 1..n numbered: after N successful
      calls on a new slot the versions are exactly 1..N and `latest_version` is N. */
  lemma AddVersionKeepsNumbering(data: Store.Data, a: Asset, contents: seq<Item>)
    requires Numbered(a)
    requires AddVersion(data, a, contents).Success?
    ensures Numbered(AddVersion(data, a, contents).value)
  {
    var r := AddVersion(data, a, contents).value;
    forall i | 0 <= i < |r.versions|
      ensures r.versions[i].version == i + 1
    {
      if i < |a.versions| {
        assert r.versions[i] == r.versions[..|a.versions|][i];
      }
    }
  }

  /** When `latest_version + 1` is already stored (the dictionary visited a larger
      key before a smaller one), `add_version(c)` loads that stored version and
      the contents c play no part. */
  lemma AddVersionOntoStoredVersion(data: Store.Data, a: Asset, contents: seq<Item>)
    requires !IsNew(data, a.slot, a.latest + 1)
    ensures AddVersion(data, a, contents) == AddVersion(data, a, [])
  {
    StoredVersionContents(data, a.slot, a.latest + 1, contents);
  }

  /** On a slot without a store entry, `add_version(c)` with non-empty contents
      appends a new version holding exactly c (when every item fits the slot's
      container), with empty contents it raises AssetVersionInitializationException,
      and either way nothing is read for that version. */
  lemma AddVersionOnNewSlot(data: Store.Data, a: Asset, contents: seq<Item>)
    requires Store.GetEntries(data, a.slot.id).None? && a.slot.kind.Some?
    ensures contents == [] ==> AddVersion(data, a, contents) == Failure(InitializationFailed)
    ensures contents != [] ==> AddVersion(data, a, contents).Success?
    ensures contents != [] && a.slot.kind == Some(FileKind) && (forall i :: 0 <= i < |contents| ==> contents[i].Text?) ==>
              Contents(AddVersion(data, a, contents).value.versions[|a.versions|]) == Some(contents)
  {
    assert IsNew(data, a.slot, a.latest + 1);
    NewVersionContents(data, a.slot, a.latest + 1, contents);
  }

  /** The JSON list a string list is stored as. */
  function ToJson(texts: seq<Item>): (js: seq<Store.Json>)
    requires forall i :: 0 <= i < |texts| ==> texts[i].Text?
    ensures FromJsonList(js) == texts
  {
    var js := seq(|texts|, i requires 0 <= i < |texts| => Store.JString(texts[i].text));
    assert FromJsonList(js) == texts;
    js
  }

  /** Contents round trip for file assets: a new version created with string contents
      C exposes C, and a store whose "versions" object is keyed by `str(n)` and
      holds C as the "contents" of the record under `str(version)` gives back the
      same C when that version is loaded. */
  lemma ContentsRoundTrip(data: Store.Data, stored: Store.Data, owner: Slot, version: int, texts: seq<Item>,
                          ns: seq<int>, i: nat)
    requires owner.kind == Some(FileKind)
    requires texts != [] && forall i :: 0 <= i < |texts| ==> texts[i].Text?
    requires IsNew(data, owner, version)
    requires owner.id.Some? && owner.id.value in stored && stored[owner.id.value].versions.Some?
    requires Store.DecimalKeyed(stored[owner.id.value].versions.value, ns)
    requires i < |ns| && ns[i] == version
    requires stored[owner.id.value].versions.value[i].1.contents == Some(ToJson(texts))
    ensures InitVersion(data, owner, version, texts).Success?
    ensures InitVersion(stored, owner, version, []).Success?
    ensures Contents(InitVersion(data, owner, version, texts).value) == Some(texts)
    ensures Contents(InitVersion(stored, owner, version, []).value) == Some(texts)
  {
    NewVersionContents(data, owner, version, texts);
    Store.DecimalKeyedReads(stored, owner.id.value, ns, i);
    StoredVersionContents(stored, owner, version, []);
  }

  /** A slot stored the way `Asset` writes it (the declared type, and a "versions"
      object keyed by `str(n)` for distinct numbers n) loads, when its name can be
      generated, with exactly one version per stored number, in the dictionary's
      iteration order, each holding what the store lists for it. */
  lemma LoadDecimalKeyed(ctx: Context, data: Store.Data, slot: Slot, name: Option<string>, ns: seq<int>)
    requires slot.id.Some? && slot.id.value in data
    requires KindMatches(data[slot.id.value].kind, slot.kind)
    requires data[slot.id.value].versions.Some? && Store.DecimalKeyed(data[slot.id.value].versions.value, ns)
    ensures Load(ctx, data, slot, name).Success?
    ensures var a := Load(ctx, data, slot, name).value;
            |a.versions| == |ns| &&
            (forall k :: k in ns <==> exists j :: 0 <= j < |a.versions| && a.versions[j].version == k) &&
            forall j :: 0 <= j < |a.versions| ==> InitVersion(data, slot, a.versions[j].version, []) == Success(a.versions[j])
  {
    var s := slot.id.value;
    Store.DecimalKeyedVersions(data, s, ns);
    var vm := Store.Zip(data[s].versions.value, ns);
    LoadedHistory(ctx, data, slot, name, vm);
    var vs := LoadVersions(data, slot, Store.Iterate(ctx.order, vm)).value;
    DistinctNumbers(ctx, data, slot, vm, vs);
    var ks := Store.Iterate(ctx.order, vm);
    forall k
      ensures k in ns <==> exists j :: 0 <= j < |vs| && vs[j].version == k
    {
      if k in ns {
        var j :| 0 <= j < |ks| && ks[j] == k;
        assert vs[j].version == k;
      }
    }
  }


  /** Once resolved, `dependencies()` reads nothing: the answer does not depend on
      the store or the context at all. */
  lemma DependenciesMemoized(c1: Context, c2: Context, d1: Store.Data, d2: Store.Data, v: AssetVersion)
    requires v.depsLoaded
    ensures Dependencies(c1, d1, v) == Dependencies(c2, d2, v) == (v, Success(v.deps))
  {
  }

  /** A successful `dependencies()` call resolves the cell: calling again, against
      any store, returns the same list and changes nothing. */
  lemma DependenciesIdempotent(ctx: Context, data: Store.Data, later: Context, laterData: Store.Data, v: AssetVersion)
    requires Dependencies(ctx, data, v).1.Success?
    ensures var (v1, r1) := Dependencies(ctx, data, v);
            Dependencies(later, laterData, v1) == (v1, r1)
  {
  }

  /** The first `dependencies()` call, once the name is generated: a store read that
      raises appends nothing; otherwise the pairs are resolved in order and the
      lists of those before the first that raises are appended, concatenated. The
      cell is resolved, and the whole list returned, exactly when no pair raised. */
  lemma DependenciesFirstCall(ctx: Context, data: Store.Data, v: AssetVersion)
    requires !v.depsLoaded && VersionName(ctx.cfg, v).Success?
    ensures var named := VersionName(ctx.cfg, v).value.0;
            Store.GetDependencyData(data, v.owner.id, v.version).Failure? ==>
              Dependencies(ctx, data, v) == (named, Failure(Store.GetDependencyData(data, v.owner.id, v.version).error))
    ensures Store.GetDependencyData(data, v.owner.id, v.version).Success? ==>
              var rs := Resolutions(ctx, data, Store.GetDependencyData(data, v.owner.id, v.version).value);
              var k := Successes(rs);
              var (v1, out) := Dependencies(ctx, data, v);
              v1 == VersionName(ctx.cfg, v).value.0.(deps := v1.deps, depsLoaded := v1.depsLoaded) &&
              v1.deps == v.deps + Flatten(Values(rs[..k])) &&
              (v1.depsLoaded <==> k == |rs|) &&
              out == (if k == |rs| then Success(v1.deps) else Failure(rs[k].error))
  {
  }

  /** Every entry the first call appends comes from a stored pair: it is the
      AssetVersion of that pair's slot and number. */
  lemma DependenciesComeFromStore(ctx: Context, data: Store.Data, v: AssetVersion)
    requires !v.depsLoaded && Store.GetDependencyData(data, v.owner.id, v.version).Success?
    ensures var pairs := Store.GetDependencyData(data, v.owner.id, v.version).value;
            var v1 := Dependencies(ctx, data, v).0;
            forall i :: |v.deps| <= i < |v1.deps| ==> FromPair(v1.deps[i], pairs)
  {
    var pairs := Store.GetDependencyData(data, v.owner.id, v.version).value;
    var res := Resolve(ctx, data, pairs);
    ResolvedFromPairs(ctx, data, pairs);
    var v1 := Dependencies(ctx, data, v).0;
    assert v1.deps == v.deps || v1.deps == v.deps + res.found;
    forall i | |v.deps| <= i < |v1.deps|
      ensures FromPair(v1.deps[i], pairs)
    {
      assert v1.deps[i] == res.found[i - |v.deps|];
    }
  }

  /** `dependencies()` on an unnamed version whose slot has no id raises once naming
      rules are configured, before anything is read: the log line formats `name()`. */
  lemma DependenciesNeedAName(ctx: Context, data: Store.Data, v: AssetVersion)
    requires !v.depsLoaded && v.owner.id.None? && ctx.cfg.rules != []
    requires v.name.None? || v.name == Some("")
    ensures Dependencies(ctx, data, v) == (v, Failure(RuntimeFault))
  {
  }

  /** A stored pair whose slot has no store entry contributes nothing. */
  lemma DependencyOnUnknownSlot(ctx: Context, data: Store.Data, d: Store.Dep)
    requires d.slot !in data
    ensures ResolveOne(ctx, data, d) == Success([])
  {
  }

  /** A stored pair whose slot has an entry without a "type" makes `dependencies()`
      raise DataMismatchException: the Slot built for it has type None. */
  lemma DependencyOnUntypedSlot(ctx: Context, data: Store.Data, d: Store.Dep)
    requires d.slot in data && data[d.slot].kind.None?
    ensures ResolveOne(ctx, data, d) == Failure(DataMismatch)
  {
  }

  /** The versions a loaded asset holds, when its store entry is well-formed. */
  lemma LoadedHistory(ctx: Context, data: Store.Data, slot: Slot, name: Option<string>, vm: Store.VersionMap)
    requires Store.GetEntries(data, slot.id).Some?
    requires KindMatches(Store.GetTypeData(data, slot.id), slot.kind)
    requires Store.GetVersionsData(data, slot.id) == Success(Some(vm))
    ensures LoadVersions(data, slot, Store.Iterate(ctx.order, vm)).Success?
    ensures var vs := LoadVersions(data, slot, Store.Iterate(ctx.order, vm)).value;
            Load(ctx, data, slot, name) == Success(Asset(slot, vs, LastNumber(vs), BaseName(ctx.cfg, name, slot.id).value))
  {
    LoadVersionsSucceed(data, slot, vm, Store.Iterate(ctx.order, vm));
  }

  /** Resolving a pair (B, n) whose version n is stored for slot B yields exactly one
      AssetVersion, equal to (B, n), whose contents are those a direct load of B's
      version n gives. */
  lemma DependencyOnStoredVersion(ctx: Context, data: Store.Data, d: Store.Dep, vm: Store.VersionMap)
    requires d.slot in data && data[d.slot].kind.Some?
    requires Store.GetVersionsData(data, Some(d.slot)) == Success(Some(vm))
    requires d.version in Store.Keys(vm)
    ensures ResolveOne(ctx, data, d).Success? && |ResolveOne(ctx, data, d).value| == 1
    ensures var x := ResolveOne(ctx, data, d).value[0];
            VersionEquals(x, VersionRef(Some(d.slot), d.version)) == Success(true) &&
            InitVersion(data, x.owner, d.version, []) == Success(x)
  {
    var slot := PairSlot(data, d);
    LoadedHistory(ctx, data, slot, None, vm);
    var ks := Store.Iterate(ctx.order, vm);
    var vs := LoadVersions(data, slot, ks).value;
    var i :| 0 <= i < |ks| && ks[i] == d.version;
    DistinctNumbers(ctx, data, slot, vm, vs);
    MatchingDistinct(vs, d.version, i);
    assert ResolveOne(ctx, data, d) == Success([vs[i]]);
  }

  lemma DistinctNumbers(ctx: Context, data: Store.Data, slot: Slot, vm: Store.VersionMap, vs: seq<AssetVersion>)
    requires Store.GetVersionsData(data, slot.id) == Success(Some(vm))
    requires LoadVersions(data, slot, Store.Iterate(ctx.order, vm)) == Success(vs)
    ensures |vs| == |vm|
    ensures forall j :: 0 <= j < |vs| ==>
              vs[j].version == Store.Iterate(ctx.order, vm)[j] && vs[j].owner == slot &&
              InitVersion(data, slot, vs[j].version, []) == Success(vs[j])
    ensures forall j, k :: 0 <= j < k < |vs| ==> vs[j].version != vs[k].version
  {
    var ks := Store.Iterate(ctx.order, vm);
    assert Store.DistinctKeys(vm);
    VersionsFollowKeys(data, slot, ks, vs);
    forall j, k | 0 <= j < k < |vs|
      ensures vs[j].version != vs[k].version
    {
      assert ks[j] != ks[k];
    }
  }

  /** In a history with distinct numbers, the versions numbered n are just the one
      at the position of n. */
  lemma {:induction false} MatchingDistinct(vs: seq<AssetVersion>, n: int, i: nat)
    requires i < |vs| && vs[i].version == n
    requires forall j, k :: 0 <= j < k < |vs| ==> vs[j].version != vs[k].version
    ensures Matching(vs, n) == [vs[i]]
    decreases |vs|
  {
    if i == 0 {
      assert forall j :: 1 <= j < |vs| ==> vs[j].version != n;
      assert forall j :: 0 <= j < |vs[1..]| ==> vs[1..][j].version != n;
    } else {
      MatchingDistinct(vs[1..], n, i - 1);
    }
  }

  /** `add_dependency` is idempotent under (slot, version) equality. */
  lemma AddDependencyIdempotent(v: AssetVersion, other: AssetVersion)
    ensures AddDependency(AddDependency(v, other), other) == AddDependency(v, other)
  {
  }

  /** With an explicitly set name n, `name()` of version k is n + "_v" + str(k). */
  lemma NamedVersionName(cfg: Names.NameConfig, v: AssetVersion, n: string)
    requires v.name == Some(n) && n != ""
    ensures VersionName(cfg, v) == Success((v, n + "_v" + Store.IntToDecimal(v.version)))
  {
    assert n + ("_v" + Store.IntToDecimal(v.version)) == n + "_v" + Store.IntToDecimal(v.version);
    assert v.(name := Some(n)) == v;
  }

  /** A non-empty name is cached: asking again returns it unchanged. A name that is
      None or "" is never cached, so each `name()` call generates it afresh. */
  lemma NameCachedWhenNonEmpty(cfg: Names.NameConfig, cached: Option<string>, slot: Option<string>)
    requires BaseName(cfg, cached, slot).Success?
    ensures var n := BaseName(cfg, cached, slot).value;
            (n.Some? && n.value != "" ==> BaseName(cfg, n, slot) == Success(n)) &&
            (n.None? || n.value == "" ==> BaseName(cfg, n, slot) == Names.GenerateNameForSlot(cfg, slot))
  {
  }

  /** Without a usable cached name, `name()` of version k is the generated name
      followed by "_v" and k, or "None_v" and k when generation yields None (a
      missing token); a generation that raises makes `name()` raise. */
  lemma UnnamedVersionName(cfg: Names.NameConfig, v: AssetVersion)
    requires v.name.None? || v.name == Some("")
    ensures match Names.GenerateNameForSlot(cfg, v.owner.id)
            case Failure(e) => VersionName(cfg, v) == Failure(e)
            case Success(None) =>
              VersionName(cfg, v) == Success((v.(name := None), "None_v" + Store.IntToDecimal(v.version)))
            case Success(Some(n)) =>
              VersionName(cfg, v) == Success((v.(name := Some(n)), n + "_v" + Store.IntToDecimal(v.version)))
  {
    var suffix := Store.IntToDecimal(v.version);
    match Names.GenerateNameForSlot(cfg, v.owner.id)
    case Failure(_) =>
    case Success(None) =>
      assert "None" + ("_v" + suffix) == "None_v" + suffix;
    case Success(Some(n)) =>
      assert n + ("_v" + suffix) == n + "_v" + suffix;
  }
}

=== FILE: container.dfy ===
/** Content containers (assets/container.py) and their concrete variants
    (FileContainer and AssetContainer in both asset.py revisions), as one tagged
    datatype with pure update functions. Each operation returns the updated
    container, or the exception the Python code would raise. */
module Containers {
  import opened Wrappers
  import opened Errors
  import opened Slots

  /** The Python values a container operation may be handed. An AssetVersion and an
      Asset are represented by the identity their `__eq__` compares. */
  datatype Item =
    | Text(text: string)
    | Number(n: int)
    | Null
    | VersionRef(slot: Option<string>, version: int)
    | AssetRef(slot: Option<string>)

  /** Which class the container is: the `Container` base, `FileContainer`, the newer
      `AssetContainer` (holds AssetVersions) or the older one (holds Assets). */
  datatype Variant = BaseVariant | FileVariant | VersionVariant | AssetVariant

  datatype Container = Container(variant: Variant, kind: Option<ContentKind>, contents: seq<Item>)

  /** What `_find_content` returns: `None`, the item itself, or a filtered list. */
  datatype Found = NotFound | FoundItem(item: Item) | FoundList(items: seq<Item>)

  /** Python's `a == b` between two items. `Asset.__eq__` and `AssetVersion.__eq__`
      compare slot (and version) against an operand of their own class and raise
      TypeError for any other operand, whichever side of `==` they are on; other
      values compare by value. */
  function PyEq(a: Item, b: Item): (r: Fallible<bool>)
    ensures r.Failure? <==> (a.VersionRef? || a.AssetRef? || b.VersionRef? || b.AssetRef?) &&
                            !(a.VersionRef? && b.VersionRef?) && !(a.AssetRef? && b.AssetRef?)
    ensures r.Failure? ==> r.error == IdentityTypeError
    ensures a.VersionRef? && b.VersionRef? ==>
              r == Success(a.slot == b.slot && a.version == b.version)
    ensures a.AssetRef? && b.AssetRef? ==> r == Success(a.slot == b.slot)
    ensures r.Success? ==> (r.value <==> a == b)
  {
    match (a, b)
    case (VersionRef(s1, v1), VersionRef(s2, v2)) => Success(s1 == s2 && v1 == v2)
    case (AssetRef(s1), AssetRef(s2)) => Success(s1 == s2)
    case (VersionRef(_, _), _) => Failure(IdentityTypeError)
    case (AssetRef(_), _) => Failure(IdentityTypeError)
    case (_, VersionRef(_, _)) => Failure(IdentityTypeError)
    case (_, AssetRef(_)) => Failure(IdentityTypeError)
    case _ => Success(a == b)
  }

  /** `a == b` and `b == a` agree, including on when they raise. */
  lemma PyEqSymmetric(a: Item, b: Item)
    ensures PyEq(a, b) == PyEq(b, a)
  {
  }

  /** `Container()` and the subclass constructors: empty contents; the base class
      has type None, the subclasses set their content type. */
  function NewContainer(variant: Variant): (c: Container)
    ensures c.contents == [] && c.variant == variant
    ensures variant == BaseVariant <==> c.kind.None?
    ensures variant == FileVariant <==> c.kind == Some(FileKind)
  {
    var kind := match variant
      case BaseVariant => None
      case FileVariant => Some(FileKind)
      case VersionVariant => Some(AssetKind)
      case AssetVariant => Some(AssetKind);
    Container(variant, kind, [])
  }

  /** `_is_valid(content)`: FileContainer accepts strings, the newer AssetContainer
      AssetVersions, the older one Assets; the base class raises. */
  function IsValid(variant: Variant, x: Item): (r: Fallible<bool>)
    ensures r.Failure? <==> variant == BaseVariant
    ensures r.Failure? ==> r.error == NotImplemented
    ensures r == Success(true) ==> (x.Text? <==> variant == FileVariant)
    ensures r == Success(true) ==> (x.VersionRef? <==> variant == VersionVariant)
    ensures r == Success(true) ==> (x.AssetRef? <==> variant == AssetVariant)
    ensures variant != BaseVariant && (x.Number? || x.Null?) ==> r == Success(false)
  {
    match variant
    case BaseVariant => Failure(NotImplemented)
    case FileVariant => Success(x.Text?)
    case VersionVariant => Success(x.VersionRef?)
    case AssetVariant => Success(x.AssetRef?)
  }

  /** Every element is valid for the container's class, the invariant `set_contents`
      and `add_content` keep. */
  predicate Valid(c: Container) {
    forall i :: 0 <= i < |c.contents| ==> IsValid(c.variant, c.contents[i]) == Success(true)
  }

  /** The validity test of `set_contents`: `len(filter(_is_valid, xs)) == len(xs)`. */
  function AllValid(variant: Variant, xs: seq<Item>): (r: Fallible<bool>)
    ensures variant != BaseVariant ==> r.Success?
    ensures r == Success(true) <==> forall i :: 0 <= i < |xs| ==> IsValid(variant, xs[i]) == Success(true)
    decreases |xs|
  {
    if |xs| == 0 then Success(true)
    else
      assert forall i :: 1 <= i < |xs| ==> xs[i] == xs[1..][i - 1];
      match IsValid(variant, xs[0])
      case Failure(e) => Failure(e)
      case Success(ok) =>
        match AllValid(variant, xs[1..])
        case Failure(e) => Failure(e)
        case Success(rest) => Success(ok && rest)
  }

  /** `set_contents(xs)`: replaces the contents with xs when every element is
      valid, and otherwise leaves the container as it was. */
  function SetContents(c: Container, xs: seq<Item>): (r: Fallible<Container>)
    ensures c.variant != BaseVariant ==> r.Success?
    ensures r.Success? ==> r.value.variant == c.variant && r.value.kind == c.kind
    ensures r.Success? ==> r.value.contents == xs || r.value == c
    ensures r.Success? && r.value.contents == xs && xs != c.contents ==>
              forall i :: 0 <= i < |xs| ==> IsValid(c.variant, xs[i]) == Success(true)
    ensures c.variant != BaseVariant && (forall i :: 0 <= i < |xs| ==> IsValid(c.variant, xs[i]) == Success(true)) ==>
              r.value == c.(contents := xs)
    ensures c.variant != BaseVariant && !(forall i :: 0 <= i < |xs| ==> IsValid(c.variant, xs[i]) == Success(true)) ==>
              r.value == c
    ensures r.Success? && Valid(c) ==> Valid(r.value)
  {
    var ok :- AllValid(c.variant, xs);
    if ok then Success(c.(contents := xs)) else Success(c)
  }

  /** `x in xs`, compared with `==` element by element until the first match. */
  function Contains(xs: seq<Item>, x: Item): (r: Fallible<bool>)
    ensures r.Success? && r.value ==> x in xs
    ensures r.Success? && !r.value ==> x !in xs
    ensures x.Text? && (forall i :: 0 <= i < |xs| ==> xs[i].Text?) ==> r == Success(x in xs)
    decreases |xs|
  {
    if |xs| == 0 then Success(false)
    else
      var same :- PyEq(x, xs[0]);
      if same then Success(true) else Contains(xs[1..], x)
  }

  /** `x.slot()` on an item: Assets and AssetVersions have it, other values do not. */
  function SlotOf(x: Item): Fallible<Option<string>> {
    match x
    case VersionRef(s, _) => Success(s)
    case AssetRef(s) => Success(s)
    case _ => Failure(RuntimeFault)
  }

  /** `x.version()` on an item: only an AssetVersion answers it; `Asset.version`
      needs an argument, so the zero-argument call raises TypeError. */
  function VersionOf(x: Item): Fallible<int> {
    match x
    case VersionRef(_, v) => Success(v)
    case _ => Failure(RuntimeFault)
  }

  /** The filter predicate of AssetContainer's `_find_content`:
      `e.slot() == x.slot() and e.version() == x.version()`. */
  function SameIdentity(e: Item, x: Item): Fallible<bool> {
    var s1 :- SlotOf(e);
    var s2 :- SlotOf(x);
    if s1 != s2 then Success(false)
    else
      var v1 :- VersionOf(e);
      var v2 :- VersionOf(x);
      Success(v1 == v2)
  }

  /** `filter(SameIdentity(., x), xs)`. */
  function FilterSame(xs: seq<Item>, x: Item): (r: Fallible<seq<Item>>)
    ensures r.Success? ==> forall i :: 0 <= i < |r.value| ==> r.value[i] in xs
    ensures x.VersionRef? && (forall i :: 0 <= i < |xs| ==> xs[i].VersionRef?) ==>
              r.Success? && (r.value != [] <==> exists i :: 0 <= i < |xs| && xs[i] == x)
    ensures x.AssetRef? && (forall i :: 0 <= i < |xs| ==> xs[i].AssetRef?) && x !in xs ==> r == Success([])
    decreases |xs|
  {
    if |xs| == 0 then Success([])
    else
      var keep :- SameIdentity(xs[0], x);
      var rest :- FilterSame(xs[1..], x);
      Success(if keep then [xs[0]] + rest else rest)
  }

  /** `_find_content(x)`: FileContainer answers the item itself or None; both
      AssetContainers answer a list, empty when nothing matches. */
  function Find(c: Container, x: Item): (r: Fallible<Found>)
    ensures c.variant == BaseVariant ==> r == Failure(NotImplemented)
    ensures r.Success? && r.value.FoundItem? ==> r.value.item == x && x in c.contents
    ensures r.Success? && r.value.NotFound? ==> c.variant == FileVariant && x !in c.contents
    ensures r.Success? && r.value.FoundList? ==>
              c.variant != FileVariant && forall i :: 0 <= i < |r.value.items| ==> r.value.items[i] in c.contents
    ensures r.Success? ==> (r.value.FoundList? <==> c.variant == VersionVariant || c.variant == AssetVariant)
    ensures Valid(c) && c.variant == FileVariant && x.Text? ==>
              r == Success(if x in c.contents then FoundItem(x) else NotFound)
    ensures Valid(c) && c.variant == VersionVariant && x.VersionRef? ==>
              r.Success? && (r.value.items != [] <==> x in c.contents)
  {
    match c.variant
    case BaseVariant => Failure(NotImplemented)
    case FileVariant =>
      var present :- Contains(c.contents, x);
      Success(if present then FoundItem(x) else NotFound)
    case VersionVariant =>
      var l :- FilterSame(c.contents, x);
      Success(FoundList(l))
    case AssetVariant =>
      var l :- FilterSame(c.contents, x);
      Success(FoundList(l))
  }

  /** `_exists(x)`: `_find_content(x) is not None`. */
  function Exists(c: Container, x: Item): (r: Fallible<bool>)
    ensures c.variant == FileVariant && x.Text? && Valid(c) ==> r == Success(x in c.contents)
    ensures (c.variant == VersionVariant || c.variant == AssetVariant) && r.Success? ==> r.value
  {
    var f :- Find(c, x);
    Success(f != NotFound)
  }

  /** `add_content(x)`: appends x when it is valid and not already present,
      otherwise does nothing. */
  function AddContent(c: Container, x: Item): (r: Fallible<Container>)
    ensures r.Success? ==> r.value.variant == c.variant && r.value.kind == c.kind
    ensures r.Success? ==> r.value == c || r.value.contents == c.contents + [x]
    ensures r.Success? && r.value != c ==> IsValid(c.variant, x) == Success(true) && x !in c.contents
    ensures r.Success? && Valid(c) ==> Valid(r.value)
  {
    var ok :- IsValid(c.variant, x);
    if !ok then Success(c)
    else
      var present :- Exists(c, x);
      if present then Success(c) else Success(c.(contents := c.contents + [x]))
  }

  /** `len(v)`: defined on strings and lists; the model only needs strings. */
  function PyLenOfItem(x: Item): Fallible<int> {
    match x
    case Text(s) => Success(|s|)
    case _ => Failure(RuntimeFault)
  }

  /** `xs.remove(x)`: drops the first element equal to x; ValueError when none is. */
  function RemoveFirst(xs: seq<Item>, x: Item): (r: Fallible<seq<Item>>)
    ensures r.Success? ==> x in xs && |r.value| == |xs| - 1 && multiset(r.value) == multiset(xs) - multiset{x}
    ensures (forall i :: 0 <= i < |xs| ==> PyEq(xs[i], x).Success?) ==> (r.Success? <==> x in xs)
    decreases |xs|
  {
    if |xs| == 0 then Failure(RuntimeFault)
    else
      assert xs == [xs[0]] + xs[1..];
      assert forall i :: 1 <= i < |xs| ==> xs[i] == xs[1..][i - 1];
      match PyEq(xs[0], x)
      case Failure(e) => Failure(e)
      case Success(same) =>
        if same then Success(xs[1..])
        else
          match RemoveFirst(xs[1..], x)
          case Failure(e) => Failure(e)
          case Success(rest) => Success([xs[0]] + rest)
  }

  /** `remove_content(x)`: removes x when `len(self._find_content(x)) == x`. */
  function RemoveContent(c: Container, x: Item): (r: Fallible<Container>)
    ensures c.variant == BaseVariant ==> r == Failure(NotImplemented)
    ensures r.Success? ==> r.value == c
    ensures Valid(c) && c.variant == FileVariant && x.Text? ==> (r == Success(c) <==> x in c.contents)
  {
    var f :- Find(c, x);
    var n :- match f
      case NotFound => Failure(RuntimeFault)
      case FoundItem(y) => PyLenOfItem(y)
      case FoundList(l) => Success(|l|);
    RemoveIfLength(c, x, n)
  }

  /** The guard and body of `remove_content` once the length n is known:
      `if n == content: self._contents.remove(content)`. */
  function RemoveIfLength(c: Container, x: Item, n: int): (r: Fallible<Container>)
    ensures r.Success? ==> r.value.variant == c.variant && r.value.kind == c.kind
    ensures r.Success? && r.value != c ==>
              x == Number(n) && x in c.contents && multiset(r.value.contents) == multiset(c.contents) - multiset{x}
    ensures PyEq(Number(n), x) == Success(false) ==> r == Success(c)
  {
    var hit :- PyEq(Number(n), x);
    if !hit then Success(c)
    else
      var rest :- RemoveFirst(c.contents, x);
      Success(c.(contents := rest))
  }

  // ---------------------------------------------------------------------------
  // Corrected guards
  // ---------------------------------------------------------------------------

  /** `_exists(x)` as evidently intended: the item was found, or the list of
      matches is non-empty. */
  function Present(c: Container, x: Item): (r: Fallible<bool>)
    ensures Valid(c) && c.variant == FileVariant && x.Text? ==> r == Success(x in c.contents)
    ensures Valid(c) && c.variant == VersionVariant && x.VersionRef? ==> r == Success(x in c.contents)
    ensures Valid(c) && c.variant == AssetVariant && x.AssetRef? && x !in c.contents ==> r == Success(false)
  {
    var f :- Find(c, x);
    Success(match f
      case NotFound => false
      case FoundItem(_) => true
      case FoundList(l) => l != [])
  }

  /** `add_content(x)` with the corrected `_exists`. */
  function AddContentCorrected(c: Container, x: Item): (r: Fallible<Container>)
    ensures r.Success? ==> r.value.variant == c.variant && r.value.kind == c.kind
    ensures r.Success? && Valid(c) ==> Valid(r.value)
    ensures Valid(c) && c.variant != BaseVariant && IsValid(c.variant, x) != Success(true) ==> r == Success(c)
    ensures Valid(c) && (c.variant == FileVariant || c.variant == VersionVariant) && IsValid(c.variant, x) == Success(true) ==>
              r == Success(if x in c.contents then c else c.(contents := c.contents + [x]))
    ensures Valid(c) && c.variant == AssetVariant && x.AssetRef? && x !in c.contents ==>
              r == Success(c.(contents := c.contents + [x]))
  {
    var ok :- IsValid(c.variant, x);
    if !ok then Success(c)
    else
      var present :- Present(c, x);
      if present then Success(c) else Success(c.(contents := c.contents + [x]))
  }

  /** `remove_content(x)` with the guard evidently intended: remove x when it is
      present. */
  function RemoveContentCorrected(c: Container, x: Item): (r: Fallible<Container>)
    ensures r.Success? ==> r.value.variant == c.variant && r.value.kind == c.kind
    ensures r.Success? && r.value != c ==>
              x in c.contents && multiset(r.value.contents) == multiset(c.contents) - multiset{x}
    ensures Valid(c) && ((c.variant == FileVariant && x.Text?) || (c.variant == VersionVariant && x.VersionRef?)) ==>
              r.Success? && (r.value != c <==> x in c.contents)
  {
    var present :- Present(c, x);
    if !present then Success(c)
    else
      match RemoveFirst(c.contents, x)
      case Failure(e) => Failure(e)
      case Success(rest) => Success(c.(contents := rest))
  }

  /** `type()`. */
  function Type(c: Container): (r: Option<ContentKind>)
    ensures c == NewContainer(c.variant) ==> (r.None? <==> c.variant == BaseVariant)
    ensures c == NewContainer(c.variant) && c.variant == FileVariant ==> r == Some(FileKind)
  {
    c.kind
  }

  /** `set_type(t)`. */
  function SetType(c: Container, t: Option<ContentKind>): (r: Container)
    ensures Type(r) == t
    ensures r.contents == c.contents && r.variant == c.variant
  {
    c.(kind := t)
  }

  // ---------------------------------------------------------------------------
  // Properties
  // ---------------------------------------------------------------------------

  /** `add_content` grows the contents by at most one element, and never for an
      invalid item or one that is already present. */
  lemma AddContentGrowsByAtMostOne(c: Container, x: Item)
    requires AddContent(c, x).Success?
    ensures |AddContent(c, x).value.contents| <= |c.contents| + 1
    ensures IsValid(c.variant, x) != Success(true) || x in c.contents ==>
              AddContent(c, x).value.contents == c.contents
  {
  }

  /** On a FileContainer, `add_content` appends exactly the strings that are not
      yet present, and adding the same string twice is the same as adding it once. */
  lemma FileAddContent(c: Container, x: Item)
    requires c.variant == FileVariant && Valid(c)
    ensures AddContent(c, x).Success?
    ensures AddContent(c, x).value.contents ==
              if x.Text? && x !in c.contents then c.contents + [x] else c.contents
    ensures AddContent(AddContent(c, x).value, x) == AddContent(c, x)
  {
    if x.Text? && x !in c.contents {
      var c1 := c.(contents := c.contents + [x]);
      assert Valid(c1);
      assert x in c1.contents;
    }
  }

  /** The AssetContainers' `_find_content` answers a list even when nothing matches,
      so `_exists` holds for every valid item and `add_content` never adds one.
      The newer AssetContainer always returns unchanged; the older one raises when
      an Asset of the same slot is present, because `Asset.version` takes a version
      number and the zero-argument call raises TypeError. */
  lemma AssetContainerNeverAdds(c: Container, x: Item)
    requires c.variant == VersionVariant || c.variant == AssetVariant
    requires Valid(c)
    ensures AddContent(c, x).Success? ==> AddContent(c, x).value == c
    ensures c.variant == VersionVariant ==> AddContent(c, x) == Success(c)
  {
  }

  /** `remove_content` never removes anything from a valid container: its guard
      compares a length with the item itself. It leaves the container unchanged
      or raises; for a FileContainer it raises exactly when the string is absent. */
  lemma RemoveContentNeverRemoves(c: Container, x: Item)
    requires Valid(c)
    ensures RemoveContent(c, x).Success? ==> RemoveContent(c, x).value == c
    ensures c.variant == FileVariant && x.Text? ==>
              (RemoveContent(c, x) == Success(c) <==> x in c.contents)
  {
  }

  /** `set_contents` is all-or-nothing: with one invalid element the container keeps
      its previous contents, and valid contents are installed whole. */
  lemma SetContentsAllOrNothing(c: Container, xs: seq<Item>, bad: nat)
    requires c.variant != BaseVariant
    requires bad < |xs| && IsValid(c.variant, xs[bad]) != Success(true)
    ensures SetContents(c, xs) == Success(c)
  {
  }

  /** `set_type(t)` then `type()` gives t, and the contents are untouched. */
  lemma TypeRoundTrip(c: Container, t: Option<ContentKind>)
    ensures Type(SetType(c, t)) == t && SetType(c, t).contents == c.contents
  {
  }

  /** As written, removing a present string from a FileContainer keeps it; the
      corrected guard removes it. */
  lemma RemoveContentKeepsPresentString()
    ensures var c := Container(FileVariant, Some(FileKind), [Text("a")]);
            RemoveContent(c, Text("a")) == Success(c) &&
            RemoveContentCorrected(c, Text("a")) == Success(c.(contents := []))
  {
    var c := Container(FileVariant, Some(FileKind), [Text("a")]);
    assert RemoveFirst(c.contents, Text("a")) == Success([]);
  }

  /** As written, an empty AssetContainer refuses its first AssetVersion; the
      corrected `_exists` lets it in. */
  lemma AssetContainerRefusesFirstVersion()
    ensures var c := Container(VersionVariant, Some(AssetKind), []);
            var x := VersionRef(Some("s"), 1);
            AddContent(c, x) == Success(c) &&
            AddContentCorrected(c, x) == Success(c.(contents := [x]))
  {
    var c := Container(VersionVariant, Some(AssetKind), []);
    var x := VersionRef(Some("s"), 1);
    assert Find(c, x) == Success(FoundList([]));
    assert Present(c, x) == Success(false);
    assert Exists(c, x) == Success(true);
    assert c.contents + [x] == [x];
  }

  /** With the corrected guards, adding an item the container lacks and then
      removing it restores the container, and adding twice is adding once. */
  lemma {:induction false} AddRemoveRoundTrip(c: Container, x: Item)
    requires Valid(c) && (c.variant == FileVariant || c.variant == VersionVariant)
    requires IsValid(c.variant, x) == Success(true) && x !in c.contents
    ensures AddContentCorrected(c, x).Success?
    ensures AddContentCorrected(AddContentCorrected(c, x).value, x) == AddContentCorrected(c, x)
    ensures RemoveContentCorrected(AddContentCorrected(c, x).value, x) == Success(c)
  {
    var c1 := c.(contents := c.contents + [x]);
    assert AddContentCorrected(c, x) == Success(c1);
    assert x in c1.contents;
    RemoveFirstAppended(c.contents, x);
  }

  /** Removing the first x from `xs + [x]` gives xs when x is not in xs and every
      comparison succeeds. */
  lemma {:induction false} RemoveFirstAppended(xs: seq<Item>, x: Item)
    requires x !in xs
    requires forall i :: 0 <= i < |xs| ==> PyEq(xs[i], x).Success?
    requires PyEq(x, x).Success?
    ensures RemoveFirst(xs + [x], x) == Success(xs)
    decreases |xs|
  {
    if |xs| == 0 {
      assert RemoveFirst([x], x) == Success([]);
    } else {
      assert (xs + [x])[1..] == xs[1..] + [x];
      assert forall i :: 1 <= i < |xs| ==> xs[i] == xs[1..][i - 1];
      RemoveFirstAppended(xs[1..], x);
      assert [xs[0]] + xs[1..] == xs;
    }
  }
}

=== FILE: legacy_asset.dfy ===
/** Asset and AssetVersion of the older revision (assets/asset.py). It differs from
    the newer one in: an AssetVersion is built from a slot id or an asset, loads a
    container only when the store has data for it, resolves dependencies into bare
    AssetVersions, ignores `add_dependency`, and `add_version` takes no contents. */
module LegacyAssets {
  import opened Wrappers
  import opened Errors
  import opened Slots
  import opened Containers
  import Store
  import Assets

  datatype LegacyVersion = LegacyVersion(
    slot: Option<string>,
    version: int,
    container: Option<Container>,
    deps: seq<LegacyVersion>,
    depsLoaded: bool)

  datatype LegacyAsset = LegacyAsset(slot: Slot, versions: seq<LegacyVersion>, latest: int)

  /** The identity `AssetVersion.__eq__` compares. */
  function Ref(v: LegacyVersion): Item {
    VersionRef(v.slot, v.version)
  }

  /** `contents()`: None without a container. */
  function Contents(v: LegacyVersion): (r: Option<seq<Item>>)
    ensures r.None? <==> v.container.None?
    ensures r.Some? && Valid(v.container.value) && v.container.value.variant == FileVariant ==>
              forall i :: 0 <= i < |r.value| ==> r.value[i].Text?
    ensures r.Some? && Valid(v.container.value) && v.container.value.variant == AssetVariant ==>
              forall i :: 0 <= i < |r.value| ==> r.value[i].AssetRef?
  {
    match v.container
    case None => None
    case Some(c) => Some(c.contents)
  }

  /** `container_factory(type)` of this revision: its AssetContainer holds Assets. */
  function ContainerFactory(kind: Option<ContentKind>): (c: Option<Container>)
    ensures c.None? <==> kind.None?
    ensures c.Some? ==> c.value.contents == [] && c.value.kind == kind && Valid(c.value)
    ensures kind == Some(FileKind) ==> c.value.variant == FileVariant
    ensures kind == Some(AssetKind) ==> c.value.variant == AssetVariant
  {
    match kind
    case None => None
    case Some(FileKind) => Some(NewContainer(FileVariant))
    case Some(AssetKind) => Some(NewContainer(AssetVariant))
  }

  /** `not version_data`: no record, or a record that is an empty JSON object. */
  predicate NoData(record: Option<Store.VersionRecord>)
    ensures NoData(record) <==> record.None? || record.value == Store.VersionRecord(None, None)
  {
    record.None? || (record.value.contents.None? && record.value.dependencies.None?)
  }

  /** `_load_container()`: no container unless the store has data for the version;
      otherwise a container of the stored type, filled from the store. */
  function LoadContainer(data: Store.Data, slot: Option<string>, version: int): (r: Fallible<Option<Container>>)
    ensures Store.GetVersionData(data, slot, version).Success? && NoData(Store.GetVersionData(data, slot, version).value) ==>
              r == Success(None)
    ensures r.Success? && r.value.Some? ==>
              Store.GetVersionData(data, slot, version).Success? &&
              !NoData(Store.GetVersionData(data, slot, version).value) &&
              r.value.value.kind == Store.GetTypeData(data, slot)
    ensures r.Failure? ==> r.error == BadVersionKey || r.error == RuntimeFault
    ensures r.Success? <==>
              Store.GetVersionData(data, slot, version).Success? &&
              (NoData(Store.GetVersionData(data, slot, version).value) || Store.GetTypeData(data, slot).Some?)
  {
    var record :- Store.GetVersionData(data, slot, version);
    if NoData(record) then Success(None)
    else
      match ContainerFactory(Store.GetTypeData(data, slot))
      case None => Failure(RuntimeFault)
      case Some(c) =>
        match Assets.LoadContents(data, c, slot, version)
        case Failure(e) => Failure(e)
        case Success(loaded) => Success(Some(loaded))
  }

  /** `AssetVersion(version, slot=None, asset=None)`: ValueError when neither a slot
      nor an asset is given; the slot is the given one, else the asset's. The asset
      enters only through `asset.slot()`, which `assetSlot` carries (None when no
      asset is given). */
  function NewVersion(data: Store.Data, version: int, slot: Option<string>, assetSlot: Option<Option<string>>)
    : (r: Fallible<LegacyVersion>)
    ensures r == Failure(MissingSlotAndAsset) <==> slot.None? && assetSlot.None?
    ensures r.Success? ==> r.value.slot == (if slot.Some? then slot else assetSlot.value)
    ensures r.Success? ==> r.value.version == version && r.value.deps == [] && !r.value.depsLoaded
    ensures r.Success? ==> LoadContainer(data, r.value.slot, version) == Success(r.value.container)
  {
    if slot.None? && assetSlot.None? then Failure(MissingSlotAndAsset)
    else
      var s := if slot.Some? then slot else assetSlot.value;
      match LoadContainer(data, s, version)
      case Failure(e) => Failure(e)
      case Success(c) => Success(LegacyVersion(s, version, c, [], false))
  }

  /** One version per key, each built with `slot=self.slot()` and `asset=self`. */
  function LoadVersions(data: Store.Data, slot: Slot, keys: seq<int>): (r: Fallible<seq<LegacyVersion>>)
    ensures r.Success? ==> |r.value| == |keys|
    ensures r.Success? ==> forall i :: 0 <= i < |keys| ==> r.value[i].version == keys[i] && r.value[i].slot == slot.id
    ensures r.Success? ==> forall i :: 0 <= i < |keys| ==> NewVersion(data, keys[i], slot.id, Some(slot.id)) == Success(r.value[i])
    ensures r.Success? <==> forall i :: 0 <= i < |keys| ==> NewVersion(data, keys[i], slot.id, Some(slot.id)).Success?
    ensures r.Failure? ==> r.error == BadVersionKey || r.error == RuntimeFault
    decreases |keys|
  {
    if |keys| == 0 then Success([])
    else
      var first :- NewVersion(data, keys[0], slot.id, Some(slot.id));
      var rest :- LoadVersions(data, slot, keys[1..]);
      Success([first] + rest)
  }

  /** `Asset(slot)` of this revision; a type mismatch raises DataIntegrityException.
      The versions come in the order `order` iterates the versions dictionary. */
  function Load(order: Store.DictOrder, data: Store.Data, slot: Slot): (r: Fallible<LegacyAsset>)
    ensures r.Success? ==> r.value.slot == slot && r.value.latest == LastNumber(r.value.versions)
    ensures r.Success? && Store.GetVersionsData(data, slot.id).Success? && Store.GetVersionsData(data, slot.id).value.Some? ==>
              var ks := Store.Iterate(order, Store.GetVersionsData(data, slot.id).value.value);
              |r.value.versions| == |ks| && forall i :: 0 <= i < |ks| ==> r.value.versions[i].version == ks[i]
    ensures r.Success? && Store.GetVersionsData(data, slot.id).Success? && Store.GetVersionsData(data, slot.id).value.Some? ==>
              var ks := Store.Iterate(order, Store.GetVersionsData(data, slot.id).value.value);
              forall i :: 0 <= i < |ks| ==> NewVersion(data, ks[i], slot.id, Some(slot.id)) == Success(r.value.versions[i])
    ensures Store.GetEntries(data, slot.id).Some? && Assets.KindMatches(Store.GetTypeData(data, slot.id), slot.kind) &&
            Store.GetVersionsData(data, slot.id) == Success(None)
            ==> r == Failure(RuntimeFault)
    ensures Store.GetEntries(data, slot.id).None? ==> r == Success(LegacyAsset(slot, [], 0))
    ensures r == Failure(DataIntegrity) <==>
              Store.GetEntries(data, slot.id).Some? && !Assets.KindMatches(Store.GetTypeData(data, slot.id), slot.kind)
  {
    if Store.GetEntries(data, slot.id).None? then Success(LegacyAsset(slot, [], 0))
    else if !Assets.KindMatches(Store.GetTypeData(data, slot.id), slot.kind) then Failure(DataIntegrity)
    else
      match Store.GetVersionsData(data, slot.id)
      case Failure(e) => Failure(e)
      case Success(None) => Failure(RuntimeFault)
      case Success(Some(vm)) =>
        match LoadVersions(data, slot, Store.Iterate(order, vm))
        case Failure(e) => Failure(e)
        case Success(vs) => Success(LegacyAsset(slot, vs, LastNumber(vs)))
  }

  function LastNumber(vs: seq<LegacyVersion>): int {
    if |vs| == 0 then 0 else vs[|vs| - 1].version
  }

  /** `version(n)`: the first element numbered n, else None. */
  function Version(a: LegacyAsset, n: int): (r: Option<LegacyVersion>)
    ensures r.None? <==> forall i :: 0 <= i < |a.versions| ==> a.versions[i].version != n
    ensures r.Some? ==> exists i :: 0 <= i < |a.versions| && a.versions[i] == r.value && r.value.version == n &&
                                   forall j :: 0 <= j < i ==> a.versions[j].version != n
  {
    FirstNumbered(a.versions, n)
  }

  function FirstNumbered(vs: seq<LegacyVersion>, n: int): (r: Option<LegacyVersion>)
    ensures r.None? <==> forall i :: 0 <= i < |vs| ==> vs[i].version != n
    ensures r.Some? ==> exists i :: 0 <= i < |vs| && vs[i] == r.value && r.value.version == n &&
                                   forall j :: 0 <= j < i ==> vs[j].version != n
    decreases |vs|
  {
    if |vs| == 0 then None
    else if vs[0].version == n then Some(vs[0])
    else
      var r := FirstNumbered(vs[1..], n);
      assert forall i :: 1 <= i < |vs| ==> vs[i] == vs[1..][i - 1];
      r
  }

  /** `add_version()`: appends a version numbered `latest_version + 1`, built from
      the asset's slot, and raises `latest_version` by one. */
  function AddVersion(data: Store.Data, a: LegacyAsset): (r: Fallible<LegacyAsset>)
    ensures r.Success? ==> r.value.slot == a.slot && r.value.latest == a.latest + 1
    ensures r.Success? ==> |r.value.versions| == |a.versions| + 1 && r.value.versions[..|a.versions|] == a.versions
    ensures r.Success? ==> var v := r.value.versions[|a.versions|];
                           v.version == a.latest + 1 && v.slot == a.slot.id
    ensures r.Success? ==> NewVersion(data, a.latest + 1, a.slot.id, Some(a.slot.id)) == Success(r.value.versions[|a.versions|])
    ensures r.Failure? <==> NewVersion(data, a.latest + 1, a.slot.id, Some(a.slot.id)).Failure?
    ensures Store.GetVersionData(data, a.slot.id, a.latest + 1) == Success(None) ==>
              r.Success? && Contents(r.value.versions[|a.versions|]).None?
  {
    var v :- NewVersion(data, a.latest + 1, a.slot.id, Some(a.slot.id));
    Success(a.(versions := a.versions + [v], latest := a.latest + 1))
  }

  /** `Asset.__eq__`: by slot id; a non-Asset operand raises TypeError. */
  function AssetEquals(a: LegacyAsset, other: Item): (r: Fallible<bool>)
    ensures r.Failure? <==> !other.AssetRef?
    ensures other.AssetRef? ==> r == Success(a.slot.id == other.slot)
  {
    PyEq(AssetRef(a.slot.id), other)
  }

  /** `AssetVersion.__eq__`: by (slot, version); a non-AssetVersion operand raises. */
  function VersionEquals(v: LegacyVersion, other: Item): (r: Fallible<bool>)
    ensures r.Failure? <==> !other.VersionRef?
    ensures other.VersionRef? ==> r == Success(v.slot == other.slot && v.version == other.version)
  {
    PyEq(Ref(v), other)
  }

  /** The outcome of `_load_dependencies`: what it appended before finishing or raising. */
  datatype Resolution = Resolution(found: seq<LegacyVersion>, error: Option<Error>)

  /** `AssetVersion(slot=dep[0], version=dep[1])` for one stored pair. */
  function Bare(data: Store.Data, d: Store.Dep): (r: Fallible<LegacyVersion>)
    ensures r.Success? ==> r.value.slot == Some(d.slot) && r.value.version == d.version
  {
    NewVersion(data, d.version, Some(d.slot), None)
  }

  /** Each stored pair becomes `AssetVersion(slot=dep[0], version=dep[1])`, whether or
      not that version exists. */
  function Resolve(data: Store.Data, deps: seq<Store.Dep>): (r: Resolution)
    ensures r.error.None? ==> |r.found| == |deps|
    ensures |r.found| <= |deps|
    ensures forall i :: 0 <= i < |r.found| ==> Bare(data, deps[i]) == Success(r.found[i])
    ensures r.error.Some? ==> |r.found| < |deps| && Bare(data, deps[|r.found|]) == Failure(r.error.value)
    decreases |deps|
  {
    if |deps| == 0 then Resolution([], None)
    else
      match Bare(data, deps[0])
      case Failure(e) => Resolution([], Some(e))
      case Success(v) =>
        var rest := Resolve(data, deps[1..]);
        assert forall k :: 1 <= k < |deps| ==> deps[k] == deps[1..][k - 1];
        Resolution([v] + rest.found, rest.error)
  }

  /** `dependencies()`: memoized; the first call appends one bare AssetVersion per
      stored pair, later calls return the cached list without reading the store. */
  function Dependencies(data: Store.Data, v: LegacyVersion): (r: (LegacyVersion, Fallible<seq<LegacyVersion>>))
    ensures r.0 == v.(deps := r.0.deps, depsLoaded := r.0.depsLoaded)
    ensures v.depsLoaded ==> r == (v, Success(v.deps))
    ensures |v.deps| <= |r.0.deps| && r.0.deps[..|v.deps|] == v.deps
    ensures r.1.Success? ==> r.0.depsLoaded && r.1.value == r.0.deps
    ensures r.1.Failure? ==> !r.0.depsLoaded
    ensures !v.depsLoaded && Store.GetDependencyData(data, v.slot, v.version).Failure? ==>
              r == (v, Failure(Store.GetDependencyData(data, v.slot, v.version).error))
    ensures !v.depsLoaded && Store.GetDependencyData(data, v.slot, v.version).Success? ==>
              var pairs := Store.GetDependencyData(data, v.slot, v.version).value;
              r.0.deps == v.deps + Resolve(data, pairs).found &&
              (r.1.Success? <==> forall i :: 0 <= i < |pairs| ==> Bare(data, pairs[i]).Success?) &&
              (r.1.Failure? ==> Resolve(data, pairs).error == Some(r.1.error))
  {
    if v.depsLoaded then (v, Success(v.deps))
    else
      match Store.GetDependencyData(data, v.slot, v.version)
      case Failure(e) => (v, Failure(e))
      case Success(pairs) =>
        var res := Resolve(data, pairs);
        var v' := v.(deps := v.deps + res.found);
        assert v'.deps[..|v.deps|] == v.deps;
        match res.error
        case None => (v'.(depsLoaded := true), Success(v'.deps))
        case Some(e) => (v', Failure(e))
  }

  /** `add_dependency(dependency)`: does nothing in this revision. */
  function AddDependency(v: LegacyVersion, other: LegacyVersion): (r: LegacyVersion)
    ensures r == v
  {
    v
  }

  // ---------------------------------------------------------------------------
  // Properties
  // ---------------------------------------------------------------------------

  /** A version without store data (or with an empty record) has no container, so
      `contents()` is None. */
  lemma NoDataNoContents(data: Store.Data, version: int, slot: string)
    requires Store.GetVersionData(data, Some(slot), version) == Success(None)
    ensures NewVersion(data, version, Some(slot), None).Success?
    ensures Contents(NewVersion(data, version, Some(slot), None).value).None?
  {
  }

  /** A version the store has a non-empty record for gets a container of the slot's
      type holding what the store lists: the strings of a File slot's list (or
      nothing if the list holds anything else), and nothing for an Asset slot,
      since JSON values are never Assets. An untyped slot raises. */
  lemma LoadedContainer(data: Store.Data, slot: Option<string>, version: int)
    requires Store.GetVersionData(data, slot, version).Success?
    requires !NoData(Store.GetVersionData(data, slot, version).value)
    ensures Store.GetTypeData(data, slot).None? ==> LoadContainer(data, slot, version) == Failure(RuntimeFault)
    ensures Store.GetTypeData(data, slot) == Some(FileKind) ==>
              var r := LoadContainer(data, slot, version);
              var items := Assets.FromJsonList(Store.GetContentData(data, slot, version).value);
              r.Success? && r.value.Some? && r.value.value.variant == FileVariant &&
              r.value.value.contents == (if forall i :: 0 <= i < |items| ==> items[i].Text? then items else [])
    ensures Store.GetTypeData(data, slot) == Some(AssetKind) ==>
              LoadContainer(data, slot, version) == Success(Some(NewContainer(AssetVariant)))
  {
  }

  /** A successful first `dependencies()` call appends exactly one AssetVersion per
      stored pair, identified by that pair; calling again returns the same list
      without reading the store. */
  lemma DependenciesAreStoredPairs(data: Store.Data, later: Store.Data, v: LegacyVersion)
    requires !v.depsLoaded
    requires Dependencies(data, v).1.Success?
    ensures var pairs := Store.GetDependencyData(data, v.slot, v.version).value;
            var v1 := Dependencies(data, v).0;
            |v1.deps| == |v.deps| + |pairs| &&
            (forall i :: 0 <= i < |pairs| ==>
               VersionEquals(v1.deps[|v.deps| + i], VersionRef(Some(pairs[i].slot), pairs[i].version)) == Success(true))
    ensures Dependencies(later, Dependencies(data, v).0) == Dependencies(data, v)
  {
    var pairs := Store.GetDependencyData(data, v.slot, v.version).value;
    var res := Resolve(data, pairs);
    var v1 := Dependencies(data, v).0;
    assert v1.deps == v.deps + res.found;
  }

  /** A first `dependencies()` call whose stored pairs all name versions without
      store data succeeds, appending one AssetVersion per pair, equal to it and
      without contents. */
  lemma DependenciesOnUnstoredVersions(data: Store.Data, v: LegacyVersion)
    requires !v.depsLoaded && Store.GetDependencyData(data, v.slot, v.version).Success?
    requires var pairs := Store.GetDependencyData(data, v.slot, v.version).value;
             forall i :: 0 <= i < |pairs| ==> Store.GetVersionData(data, Some(pairs[i].slot), pairs[i].version) == Success(None)
    ensures Dependencies(data, v).1.Success?
    ensures var pairs := Store.GetDependencyData(data, v.slot, v.version).value;
            var v1 := Dependencies(data, v).0;
            |v1.deps| == |v.deps| + |pairs| &&
            forall i :: 0 <= i < |pairs| ==>
              VersionEquals(v1.deps[|v.deps| + i], VersionRef(Some(pairs[i].slot), pairs[i].version)) == Success(true) &&
              Contents(v1.deps[|v.deps| + i]).None?
  {
    var pairs := Store.GetDependencyData(data, v.slot, v.version).value;
    forall i | 0 <= i < |pairs|
      ensures Bare(data, pairs[i]).Success?
    {
      NoDataNoContents(data, pairs[i].version, pairs[i].slot);
    }
    var res := Resolve(data, pairs);
    var v1 := Dependencies(data, v).0;
    assert v1.deps == v.deps + res.found;
    forall i | 0 <= i < |pairs|
      ensures Contents(res.found[i]).None?
    {
      NoDataNoContents(data, pairs[i].version, pairs[i].slot);
    }
    assert forall i :: 0 <= i < |pairs| ==> v1.deps[|v.deps| + i] == res.found[i];
  }

  /** A version whose key is in the store builds: its record is either empty or, the
      slot being typed, loads into a container. */
  lemma StoredVersionLoads(data: Store.Data, slot: Slot, vm: Store.VersionMap, k: int)
    requires Store.GetTypeData(data, slot.id).Some?
    requires Store.GetVersionsData(data, slot.id) == Success(Some(vm))
    requires k in Store.Keys(vm)
    ensures NewVersion(data, k, slot.id, Some(slot.id)).Success?
    ensures Contents(NewVersion(data, k, slot.id, Some(slot.id)).value).Some? <==> !NoData(Store.Lookup(vm, k))
  {
    assert Store.GetVersionData(data, slot.id, k) == Success(Store.Lookup(vm, k));
  }

  lemma {:induction false} LoadVersionsSucceed(data: Store.Data, slot: Slot, vm: Store.VersionMap, keys: seq<int>)
    requires Store.GetTypeData(data, slot.id).Some?
    requires Store.GetVersionsData(data, slot.id) == Success(Some(vm))
    requires forall i :: 0 <= i < |keys| ==> keys[i] in Store.Keys(vm)
    ensures LoadVersions(data, slot, keys).Success?
    decreases |keys|
  {
    if |keys| > 0 {
      StoredVersionLoads(data, slot, vm, keys[0]);
      LoadVersionsSucceed(data, slot, vm, keys[1..]);
    }
  }

  /** An entry with the declared type and a well-formed "versions" object loads, one
      AssetVersion per stored key. */
  lemma LoadSucceeds(order: Store.DictOrder, data: Store.Data, slot: Slot, vm: Store.VersionMap)
    requires Store.GetEntries(data, slot.id).Some?
    requires Assets.KindMatches(Store.GetTypeData(data, slot.id), slot.kind)
    requires Store.GetVersionsData(data, slot.id) == Success(Some(vm))
    ensures Load(order, data, slot).Success?
    ensures |Load(order, data, slot).value.versions| == |vm|
  {
    LoadVersionsSucceed(data, slot, vm, Store.Iterate(order, vm));
  }

  /** `add_version()` keeps a history numbered 1..n numbered. */
  lemma AddVersionKeepsNumbering(data: Store.Data, a: LegacyAsset)
    requires a.latest == |a.versions| && forall i :: 0 <= i < |a.versions| ==> a.versions[i].version == i + 1
    requires AddVersion(data, a).Success?
    ensures var r := AddVersion(data, a).value;
            r.latest == |r.versions| && forall i :: 0 <= i < |r.versions| ==> r.versions[i].version == i + 1
  {
    var r := AddVersion(data, a).value;
    forall i | 0 <= i < |r.versions|
      ensures r.versions[i].version == i + 1
    {
      if i < |a.versions| {
        assert r.versions[i] == r.versions[..|a.versions|][i];
      }
    }
  }

  /** Both revisions refuse the same slots on a type mismatch; the newer raises
      DataMismatchException where the older raises DataIntegrityException. */
  lemma MismatchAcrossRevisions(ctx: Assets.Context, data: Store.Data, slot: Slot, name: Option<string>)
    ensures Assets.Load(ctx, data, slot, name) == Failure(DataMismatch) <==>
              Load(ctx.order, data, slot) == Failure(DataIntegrity)
  {
    Assets.LoadMismatch(ctx, data, slot, name);
  }
}

=== FILE: names.dfy ===
/** The rule-driven name generator (assets/utils.py and its two newer copies):
    pick the token list of the first rule that matches the whole slot path, read
    each token's value out of the path, and join the values with '_'. */
module Names {
  import opened Wrappers
  import opened Errors

  /** One entry of the name-rule configuration; a rule without "tokens" has []. */
  datatype Rule = Rule(regex: string, tokens: seq<string>)

  /** The regular-expression engine, left abstract: `matcher(regex, slot)` is the text
      that `re.match("(" + regex + ")", slot)` captures in its group, or None when
      the pattern does not match at the start of the slot. */
  type Matcher = (string, string) -> Option<string>

  /** The name-rule configuration, in the dictionary's iteration order. */
  datatype NameConfig = NameConfig(rules: seq<Rule>, matcher: Matcher)

  // ---------------------------------------------------------------------------
  // Rule selection (_get_tokens)
  // ---------------------------------------------------------------------------

  /** The rule's match spans the entire slot, not just a prefix of it. */
  predicate FullMatch(m: Matcher, rule: Rule, slot: string) {
    m(rule.regex, slot) == Some(slot)
  }

  /** The rule is one `_get_tokens` returns: full match and a non-empty token list. */
  predicate Selects(m: Matcher, rule: Rule, slot: string) {
    FullMatch(m, rule, slot) && |rule.tokens| > 0
  }

  /** The loop of `_get_tokens` from rule i on; `reTokens` is the token list of the
      last fully matching rule seen, which is always empty while the loop runs. */
  function TokensLoop(rules: seq<Rule>, slot: string, m: Matcher, i: nat, reTokens: seq<string>): (r: seq<string>)
    requires i <= |rules| && reTokens == []
    ensures r == [] <==> forall j :: i <= j < |rules| ==> !Selects(m, rules[j], slot)
    ensures r != [] ==> exists j :: i <= j < |rules| && Selects(m, rules[j], slot) && r == rules[j].tokens &&
                                   forall k :: i <= k < j ==> !Selects(m, rules[k], slot)
    decreases |rules| - i
  {
    if i == |rules| then reTokens
    else
      match m(rules[i].regex, slot)
      case None => TokensLoop(rules, slot, m, i + 1, reTokens)
      case Some(matched) =>
        if matched == slot then
          var tokens := rules[i].tokens;
          if |tokens| > 0 then tokens else TokensLoop(rules, slot, m, i + 1, tokens)
        else TokensLoop(rules, slot, m, i + 1, reTokens)
  }

  /** `_get_tokens(slot)`: the token list of the first rule (in iteration order)
      whose match is the whole slot and whose token list is non-empty, else []. */
  function GetTokens(rules: seq<Rule>, slot: string, m: Matcher): (r: seq<string>)
    ensures r == [] <==> forall j :: 0 <= j < |rules| ==> !Selects(m, rules[j], slot)
    ensures r != [] ==> exists j :: 0 <= j < |rules| && Selects(m, rules[j], slot) && r == rules[j].tokens &&
                                   forall k :: 0 <= k < j ==> !Selects(m, rules[k], slot)
  {
    TokensLoop(rules, slot, m, 0, [])
  }

  /** A rule whose match covers only a proper prefix of the slot is never chosen,
      whatever its tokens. */
  lemma PrefixMatchSkipped(rules: seq<Rule>, slot: string, m: Matcher, j: nat)
    requires j < |rules| && m(rules[j].regex, slot).Some? && m(rules[j].regex, slot).value != slot
    ensures GetTokens(rules, slot, m) == [] || GetTokens(rules, slot, m) != rules[j].tokens ||
            exists k :: 0 <= k < |rules| && k != j && Selects(m, rules[k], slot) && rules[k].tokens == rules[j].tokens
  {
  }

  // ---------------------------------------------------------------------------
  // Token extraction (slot_parser)
  // ---------------------------------------------------------------------------

  /** The character class [a-z0-9]. */
  predicate IsLowerAlnum(c: char) {
    'a' <= c <= 'z' || '0' <= c <= '9'
  }

  /** Position p is where `.*\/TOKEN:([a-z0-9]+)` can place its "/TOKEN:": the text
      "/" + token + ":" starts at p, a [a-z0-9] character follows it, and the `.*`
      before it spans no newline. */
  predicate OccursAt(slot: string, token: string, p: int) {
    && 0 <= p
    && p + |token| + 2 < |slot|
    && slot[p..p + |token| + 2] == "/" + token + ":"
    && IsLowerAlnum(slot[p + |token| + 2])
    && '\n' !in slot[..p]
  }

  /** The greedy `[a-z0-9]+`: the longest prefix of s made of [a-z0-9]. */
  function LowerAlnumRun(s: string): (r: string)
    ensures |r| <= |s| && r == s[..|r|]
    ensures forall i :: 0 <= i < |r| ==> IsLowerAlnum(r[i])
    ensures |r| < |s| ==> !IsLowerAlnum(s[|r|])
    decreases |s|
  {
    if |s| == 0 || !IsLowerAlnum(s[0]) then "" else [s[0]] + LowerAlnumRun(s[1..])
  }

  /** The greedy `.*` backs off from the right: the largest p < hi where the token occurs. */
  function LastOccurrenceBelow(slot: string, token: string, hi: nat): (r: Option<nat>)
    ensures r.Some? ==> r.value < hi && OccursAt(slot, token, r.value)
    ensures r.Some? ==> forall q :: r.value < q < hi ==> !OccursAt(slot, token, q)
    ensures r.None? ==> forall q :: 0 <= q < hi ==> !OccursAt(slot, token, q)
    decreases hi
  {
    if hi == 0 then None
    else if OccursAt(slot, token, hi - 1) then Some(hi - 1)
    else LastOccurrenceBelow(slot, token, hi - 1)
  }

  /** The value `slot_parser` reads at an occurrence. */
  function ValueAt(slot: string, token: string, p: nat): string
    requires p + |token| + 2 <= |slot|
  {
    LowerAlnumRun(slot[p + |token| + 2..])
  }

  /** `slot_parser(slot, token)` of the newer revisions: the [a-z0-9] value after the
      last "/TOKEN:" in the slot; TokenNotFoundException when there is none. */
  function SlotParser(slot: string, token: string): (r: Fallible<string>)
    ensures r.Failure? ==> r.error == TokenNotFound
    ensures r.Success? ==> |r.value| > 0 && forall i :: 0 <= i < |r.value| ==> IsLowerAlnum(r.value[i])
  {
    match LastOccurrenceBelow(slot, token, |slot|)
    case None => Failure(TokenNotFound)
    case Some(p) => Success(ValueAt(slot, token, p))
  }

  /** `slot_parser` finds a value exactly when the token occurs, and the value is the
      one read at the last occurrence. */
  lemma SlotParserReadsLastOccurrence(slot: string, token: string)
    ensures SlotParser(slot, token).Success? <==> exists p :: OccursAt(slot, token, p)
    ensures SlotParser(slot, token).Success? ==>
              exists p :: OccursAt(slot, token, p) && SlotParser(slot, token).value == ValueAt(slot, token, p) &&
                          forall q :: p < q ==> !OccursAt(slot, token, q)
  {
  }

  /** `slot_parser` of the oldest revision: the same value, or an implicit None. */
  function LegacySlotParser(slot: string, token: string): (r: Option<string>)
    ensures r.Some? <==> SlotParser(slot, token).Success?
    ensures r.Some? ==> r.value == SlotParser(slot, token).value
  {
    match LastOccurrenceBelow(slot, token, |slot|)
    case None => None
    case Some(p) => Some(ValueAt(slot, token, p))
  }

  /** A slot without any '/' has no token value at all: in particular a token
      that only names the first path component is never found. */
  lemma NoSlashNoToken(slot: string, token: string)
    requires '/' !in slot
    ensures SlotParser(slot, token) == Failure(TokenNotFound)
  {
    forall p
      ensures !OccursAt(slot, token, p)
    {
      if 0 <= p && p + |token| + 2 < |slot| {
        assert slot[p..p + |token| + 2][0] == slot[p] != '/';
      }
    }
    SlotParserReadsLastOccurrence(slot, token);
  }

  // ---------------------------------------------------------------------------
  // Joining (generate_name)
  // ---------------------------------------------------------------------------

  /** `"_".join(parts)`. */
  function Join(parts: seq<string>): string
    decreases |parts|
  {
    if |parts| == 0 then ""
    else if |parts| == 1 then parts[0]
    else parts[0] + "_" + Join(parts[1..])
  }

  /** `s.split("_")`. */
  function Split(s: string): (r: seq<string>)
    ensures |r| > 0
    decreases |s|
  {
    if |s| == 0 then [""]
    else
      var rest := Split(s[1..]);
      if s[0] == '_' then [""] + rest else [[s[0]] + rest[0]] + rest[1..]
  }

  lemma {:induction false} SplitNoSeparator(a: string, t: string)
    requires '_' !in a
    ensures Split(a + t) == [a + Split(t)[0]] + Split(t)[1..]
    decreases |a|
  {
    if |a| > 0 {
      assert (a + t)[1..] == a[1..] + t;
      SplitNoSeparator(a[1..], t);
      assert [a[0]] + (a[1..] + Split(t)[0]) == a + Split(t)[0];
    } else {
      assert a + t == t;
      assert Split(t) == [Split(t)[0]] + Split(t)[1..];
      assert a + Split(t)[0] == Split(t)[0];
    }
  }

  /** Splitting a joined list of '_'-free parts gives the parts back. */
  lemma {:induction false} SplitJoin(parts: seq<string>)
    requires |parts| > 0
    requires forall i :: 0 <= i < |parts| ==> '_' !in parts[i]
    ensures Split(Join(parts)) == parts
    decreases |parts|
  {
    if |parts| == 1 {
      SplitNoSeparator(parts[0], "");
      assert parts[0] + "" == parts[0];
    } else {
      var rest := Join(parts[1..]);
      SplitJoin(parts[1..]);
      assert parts[0] + "_" + rest == parts[0] + ("_" + rest);
      SplitNoSeparator(parts[0], "_" + rest);
      assert ("_" + rest)[1..] == rest;
      assert parts[0] + "" == parts[0];
    }
  }

  /** `slot_parser(slot, t)` for every token in order; the first missing token raises. */
  function ParseAll(slot: string, tokens: seq<string>): (r: Fallible<seq<string>>)
    ensures r.Success? <==> forall i :: 0 <= i < |tokens| ==> SlotParser(slot, tokens[i]).Success?
    ensures r.Failure? ==> r.error == TokenNotFound
    ensures r.Success? ==> |r.value| == |tokens|
    ensures r.Success? ==> forall i :: 0 <= i < |tokens| ==> r.value[i] == SlotParser(slot, tokens[i]).value
    decreases |tokens|
  {
    if |tokens| == 0 then Success([])
    else
      assert forall i :: 1 <= i < |tokens| ==> tokens[i] == tokens[1..][i - 1];
      match SlotParser(slot, tokens[0])
      case Failure(e) => Failure(e)
      case Success(v) =>
        match ParseAll(slot, tokens[1..])
        case Failure(e) => Failure(e)
        case Success(rest) =>
          var r := [v] + rest;
          assert forall i :: 1 <= i < |tokens| ==> r[i] == rest[i - 1];
          Success(r)
  }

  /** `generate_name()` of the newer revisions for a slot path: the '_'-join of the
      token values; a TokenNotFoundException is caught and the result is None. */
  function GenerateName(cfg: NameConfig, slot: string): (r: Option<string>)
    ensures r.None? <==> exists i :: 0 <= i < |GetTokens(cfg.rules, slot, cfg.matcher)| &&
                                     SlotParser(slot, GetTokens(cfg.rules, slot, cfg.matcher)[i]).Failure?
    ensures GetTokens(cfg.rules, slot, cfg.matcher) == [] ==> r == Some("")
  {
    match ParseAll(slot, GetTokens(cfg.rules, slot, cfg.matcher))
    case Failure(_) => None
    case Success(values) => Some(Join(values))
  }

  /** A generated name determines the token values: splitting it at '_' gives, in
      token order, the value read for each token. */
  lemma NameDeterminesValues(cfg: NameConfig, slot: string)
    requires GetTokens(cfg.rules, slot, cfg.matcher) != []
    requires GenerateName(cfg, slot).Some?
    ensures var tokens := GetTokens(cfg.rules, slot, cfg.matcher);
            Split(GenerateName(cfg, slot).value) ==
              seq(|tokens|, i requires 0 <= i < |tokens| => SlotParser(slot, tokens[i]).value)
  {
    var tokens := GetTokens(cfg.rules, slot, cfg.matcher);
    var values := ParseAll(slot, tokens).value;
    forall i | 0 <= i < |values|
      ensures '_' !in values[i]
    {
      var v := values[i];
      assert forall k :: 0 <= k < |v| ==> IsLowerAlnum(v[k]) && v[k] != '_';
    }
    SplitJoin(values);
  }

  /** `generate_name()` when the generator's item has slot id `slot`: `re.match` on a
      None slot raises as soon as one rule is tried. */
  function GenerateNameForSlot(cfg: NameConfig, slot: Option<string>): (r: Fallible<Option<string>>)
    ensures slot.Some? ==> r == Success(GenerateName(cfg, slot.value))
    ensures slot.None? ==> (r.Success? <==> cfg.rules == [])
    ensures r.Failure? ==> r.error == RuntimeFault
  {
    match slot
    case Some(s) => Success(GenerateName(cfg, s))
    case None => if cfg.rules == [] then Success(Some("")) else Failure(RuntimeFault)
  }

  /** `generate_name()` of the oldest revision: no exception handling, so a missing
      token hands None to `"_".join`, which raises TypeError. */
  function LegacyGenerateName(cfg: NameConfig, slot: string): (r: Fallible<string>)
    ensures r.Failure? <==> GenerateName(cfg, slot).None?
    ensures r.Success? ==> r.value == GenerateName(cfg, slot).value
    ensures r.Failure? ==> r.error == RuntimeFault
  {
    var tokens := GetTokens(cfg.rules, slot, cfg.matcher);
    var values := seq(|tokens|, i requires 0 <= i < |tokens| => LegacySlotParser(slot, tokens[i]));
    assert forall i :: 0 <= i < |tokens| ==> values[i] == LegacySlotParser(slot, tokens[i]);
    if forall i :: 0 <= i < |values| ==> values[i].Some? then
      var strings := seq(|values|, i requires 0 <= i < |values| => values[i].value);
      assert forall i :: 0 <= i < |tokens| ==> values[i] == LegacySlotParser(slot, tokens[i]);
      assert forall i :: 0 <= i < |tokens| ==> SlotParser(slot, tokens[i]).Success?;
      assert ParseAll(slot, tokens).Success?;
      assert strings == ParseAll(slot, tokens).value;
      Success(Join(strings))
    else Failure(RuntimeFault)
  }
}

=== FILE: registry.dfy ===
/** ElementRegistry (assets/registry.py): a class-wide dictionary from an item's
    `slot()` to the item. The class-level dictionary becomes an explicit table
    that each operation takes and returns; `slotOf` stands for `item.slot()`. */
module Registry {
  import opened Wrappers

  type Table<K, T> = map<K, T>

  /** `find_item(key)`: the registered item, or None. */
  function FindItem<K, T>(t: Table<K, T>, key: K): (r: Option<T>)
    ensures r.Some? <==> key in t
    ensures r.Some? ==> r.value == t[key]
  {
    if key in t then Some(t[key]) else None
  }

  /** `register(item)`: stores the item under its slot unless that slot is taken. */
  function Register<K, T>(t: Table<K, T>, slotOf: T -> K, item: T): (r: Table<K, T>)
    ensures slotOf(item) in r
    ensures slotOf(item) in t ==> r[slotOf(item)] == t[slotOf(item)]
    ensures slotOf(item) !in t ==> r[slotOf(item)] == item
    ensures r.Keys == t.Keys + {slotOf(item)}
    ensures forall k :: k in t && k != slotOf(item) ==> r[k] == t[k]
  {
    if FindItem(t, slotOf(item)).None? then t[slotOf(item) := item] else t
  }

  /** `unregister(item)`: drops whatever is stored under the item's slot. */
  function Unregister<K, T>(t: Table<K, T>, slotOf: T -> K, item: T): (r: Table<K, T>)
    ensures r.Keys == t.Keys - {slotOf(item)}
    ensures forall k :: k in r ==> r[k] == t[k]
  {
    if FindItem(t, slotOf(item)).Some? then t - {slotOf(item)} else t
  }

  // ---------------------------------------------------------------------------
  // Properties
  // ---------------------------------------------------------------------------

  /** After `register(x)`, `find_item(x.slot())` answers x when the slot was free and
      the earlier item otherwise; registering again changes nothing. */
  lemma RegisterThenFind<K, T>(t: Table<K, T>, slotOf: T -> K, x: T)
    ensures FindItem(Register(t, slotOf, x), slotOf(x)) ==
              if slotOf(x) in t then Some(t[slotOf(x)]) else Some(x)
    ensures Register(Register(t, slotOf, x), slotOf, x) == Register(t, slotOf, x)
  {
  }

  /** A second item with an already-registered slot does not replace the first. */
  lemma FirstRegistrationWins<K, T>(t: Table<K, T>, slotOf: T -> K, x: T, y: T)
    requires slotOf(x) == slotOf(y)
    ensures FindItem(Register(Register(t, slotOf, x), slotOf, y), slotOf(x)) ==
              FindItem(Register(t, slotOf, x), slotOf(x))
  {
  }

  /** `unregister` removes by slot, not by identity: any item sharing the slot of
      the registered one removes it. */
  lemma UnregisterBySlot<K, T>(t: Table<K, T>, slotOf: T -> K, x: T, y: T)
    requires slotOf(x) == slotOf(y)
    ensures FindItem(Unregister(Register(t, slotOf, x), slotOf, y), slotOf(x)).None?
  {
  }

  /** Registering an item under a free slot and unregistering it restores the table. */
  lemma RegisterUnregisterRoundTrip<K, T>(t: Table<K, T>, slotOf: T -> K, x: T)
    requires slotOf(x) !in t
    ensures Unregister(Register(t, slotOf, x), slotOf, x) == t
  {
    var r := Unregister(Register(t, slotOf, x), slotOf, x);
    assert r.Keys == t.Keys;
  }

  /** Unregistering a registered item and registering it again restores the table
      when it was the item stored under its slot. */
  lemma UnregisterRegisterRoundTrip<K, T>(t: Table<K, T>, slotOf: T -> K, x: T)
    requires slotOf(x) in t && t[slotOf(x)] == x
    ensures Register(Unregister(t, slotOf, x), slotOf, x) == t
  {
    var r := Register(Unregister(t, slotOf, x), slotOf, x);
    assert r.Keys == t.Keys;
  }
}

=== FILE: slot.dfy ===
/** The Slot value: the structural path that identifies an asset, plus the
    content type it declares (assets/slot.py). */
module Slots {
  import opened Wrappers
  import opened Errors

  /** The two members of CONTENT_TYPE: file contents or asset-version contents. */
  datatype ContentKind = FileKind | AssetKind

  /** A slot. Both parts are optional keyword arguments of the constructor and are
      `None` when not given. The datatype has no update operation: a Slot never
      changes after construction. */
  datatype Slot = Slot(id: Option<string>, kind: Option<ContentKind>)

  /** `Slot(path=..., type=...)`: the id is the `path` argument and the type the
      `type` argument, each `None` when omitted. */
  function NewSlot(path: Option<string>, kind: Option<ContentKind>): (s: Slot)
    ensures s.id == path && s.kind == kind
    ensures path.None? ==> s.id.None?
  {
    Slot(path, kind)
  }

  /** `str(slot)`: the id; `__str__` returning `None` makes `str()` raise. */
  function SlotStr(s: Slot): (r: Fallible<string>)
    ensures r.Success? <==> s.id.Some?
    ensures r.Success? ==> r.value == s.id.value
    ensures r.Failure? ==> r.error == RuntimeFault
  {
    match s.id
    case Some(path) => Success(path)
    case None => Failure(RuntimeFault)
  }

  /** str(Slot(path=p, ...)) == p for every path p. */
  lemma StrOfNewSlot(path: string, kind: Option<ContentKind>)
    ensures SlotStr(NewSlot(Some(path), kind)) == Success(path)
  {
  }
}

=== FILE: store.dfy ===
/** The Store: read-only queries over the nested data map
    slot -> {type, versions: key -> {contents, dependencies}}
    (database/store.py). The process-wide singleton is replaced by an explicit
    `Data` value that every query takes as a parameter. */
module Store {
  import opened Wrappers
  import opened Errors
  import opened Slots

  /** A JSON value as it may appear in a version's "contents" list. */
  datatype Json = JString(s: string) | JNumber(n: int) | JNull

  /** One element of a version's "dependencies" list: the JSON pair [slot, version]. */
  datatype Dep = Dep(slot: string, version: int)

  /** The JSON object stored under one version key; `None` is an absent key. */
  datatype VersionRecord = VersionRecord(contents: Option<seq<Json>>, dependencies: Option<seq<Dep>>)

  /** The JSON object stored under one slot. The "versions" object keeps its keys as
      JSON strings, listed in the order the loaded dictionary iterates them. */
  datatype SlotRecord = SlotRecord(kind: Option<ContentKind>, versions: Option<seq<(string, VersionRecord)>>)

  type Data = map<string, SlotRecord>

  /** A dictionary with integer keys: an association list of its entries in the
      order they were first inserted. Lookups do not depend on that order, and
      iteration follows `Iterate`. */
  type VersionMap = seq<(int, VersionRecord)>

  // ---------------------------------------------------------------------------
  // int(key) and str(n)
  // ---------------------------------------------------------------------------

  predicate IsDigit(c: char) {
    '0' <= c <= '9'
  }

  predicate AllDigits(s: string) {
    forall i :: 0 <= i < |s| ==> IsDigit(s[i])
  }

  function DigitValue(c: char): nat
    requires IsDigit(c)
  {
    (c as int) - ('0' as int)
  }

  /** The value of a non-empty run of decimal digits, most significant first. */
  function DigitsValue(s: string): nat
    requires AllDigits(s)
    decreases |s|
  {
    if |s| == 0 then 0 else DigitsValue(s[..|s| - 1]) * 10 + DigitValue(s[|s| - 1])
  }

  /** `int(key)`: an optional sign followed by one or more decimal digits;
      anything else makes `int` raise ValueError (`None` here). */
  function ParseInt(s: string): (r: Option<int>)
    ensures r.Some? <==> (|s| > 0 && AllDigits(s)) ||
                         (|s| > 1 && (s[0] == '-' || s[0] == '+') && AllDigits(s[1..]))
    ensures r.Some? && s[0] == '-' ==> r.value <= 0
    ensures r.Some? && s[0] != '-' ==> r.value >= 0
    ensures r.Some? && s[0] == '+' ==> r == ParseInt(s[1..])
  {
    if |s| > 0 && (s[0] == '-' || s[0] == '+') then
      if |s| > 1 && AllDigits(s[1..]) then
        Some(if s[0] == '-' then -(DigitsValue(s[1..]) as int) else DigitsValue(s[1..]))
      else None
    else if |s| > 0 && AllDigits(s) then Some(DigitsValue(s))
    else None
  }

  function DigitChar(d: nat): (c: char)
    requires d < 10
    ensures IsDigit(c) && DigitValue(c) == d
  {
    ('0' as int + d) as char
  }

  function NatToDecimal(n: nat): (s: string)
    ensures |s| > 0 && AllDigits(s)
    decreases n
  {
    if n < 10 then [DigitChar(n)] else NatToDecimal(n / 10) + [DigitChar(n % 10)]
  }

  /** `str(n)` for an integer n. */
  function IntToDecimal(n: int): string {
    if n < 0 then "-" + NatToDecimal(-n) else NatToDecimal(n)
  }

  lemma {:induction false} DigitsValueOfDecimal(n: nat)
    ensures DigitsValue(NatToDecimal(n)) == n
    decreases n
  {
    if n >= 10 {
      var s := NatToDecimal(n);
      assert s[..|s| - 1] == NatToDecimal(n / 10);
      DigitsValueOfDecimal(n / 10);
    }
  }

  /** `int(str(n)) == n`: the key a version number is written under converts back to it. */
  lemma ParseIntOfDecimal(n: int)
    ensures ParseInt(IntToDecimal(n)) == Some(n)
  {
    if n < 0 {
      var s := IntToDecimal(n);
      var digits := NatToDecimal(-n);
      assert s[0] == '-' && s[1..] == digits;
      DigitsValueOfDecimal(-n);
      assert ParseInt(s) == Some(-(DigitsValue(digits) as int));
    } else {
      var s := NatToDecimal(n);
      assert IsDigit(s[0]);
      DigitsValueOfDecimal(n);
      assert ParseInt(s) == Some(DigitsValue(s));
    }
  }

  /** Different version numbers are written under different keys. */
  lemma DecimalInjective(a: int, b: int)
    requires IntToDecimal(a) == IntToDecimal(b)
    ensures a == b
  {
    ParseIntOfDecimal(a);
    ParseIntOfDecimal(b);
  }

  /** A leading zero does not change the value of a run of digits. */
  lemma {:induction false} DigitsValueLeadingZero(s: string)
    requires AllDigits(s)
    ensures AllDigits("0" + s) && DigitsValue("0" + s) == DigitsValue(s)
    decreases |s|
  {
    var t := "0" + s;
    if |s| > 0 {
      assert t[..|t| - 1] == "0" + s[..|s| - 1];
      DigitsValueLeadingZero(s[..|s| - 1]);
    } else {
      assert t[..|t| - 1] == [];
    }
  }

  /** `int("0" + s) == int(s)`: keys spelled with leading zeros convert to the same
      number, so they meet in one entry of the converted dict. */
  lemma ParseIntLeadingZero(s: string)
    requires |s| > 0 && AllDigits(s)
    ensures ParseInt("0" + s) == ParseInt(s)
  {
    DigitsValueLeadingZero(s);
  }

  /** `int("-" + s) == -int(s)` for a run of digits. */
  lemma ParseIntNegated(s: string)
    requires |s| > 0 && AllDigits(s)
    ensures ParseInt(s).Some? && ParseInt("-" + s) == Some(-ParseInt(s).value)
  {
    var t := "-" + s;
    assert t[0] == '-' && t[1..] == s;
  }

  // ---------------------------------------------------------------------------
  // Integer-keyed dictionaries
  // ---------------------------------------------------------------------------

  /** The keys of a dictionary, in iteration order. */
  function Keys(m: VersionMap): (ks: seq<int>)
    ensures |ks| == |m|
    ensures forall i :: 0 <= i < |m| ==> ks[i] == m[i].0
  {
    seq(|m|, i requires 0 <= i < |m| => m[i].0)
  }

  predicate Distinct(ns: seq<int>) {
    forall i, j :: 0 <= i < j < |ns| ==> ns[i] != ns[j]
  }

  predicate DistinctKeys(m: VersionMap) {
    forall i, j :: 0 <= i < j < |m| ==> m[i].0 != m[j].0
  }

  // ---------------------------------------------------------------------------
  // Dictionary iteration order
  // ---------------------------------------------------------------------------

  /** Python 2 iterates a dictionary in the slot order of its hash table, which
      depends on the keys' hashes, the table size and the order of insertion. The
      model leaves that order as an input: a `DictOrder` ranks each key among the
      dictionary's keys (given in insertion order), and iteration visits keys by
      increasing rank, equal ranks in insertion order. Any listing of the keys is
      such an order (`EveryListingIsAnOrder`). */
  type DictOrder = (int, seq<int>) -> int

  predicate SortedBy(rank: int -> int, ks: seq<int>) {
    forall i, j :: 0 <= i < j < |ks| ==> rank(ks[i]) <= rank(ks[j])
  }

  /** Inserts x after every leading key ranked no higher. */
  function InsertByRank(rank: int -> int, x: int, ks: seq<int>): (r: seq<int>)
    ensures multiset(r) == multiset(ks) + multiset{x}
    decreases |ks|
  {
    if |ks| == 0 || rank(x) < rank(ks[0]) then [x] + ks
    else
      assert ks == [ks[0]] + ks[1..];
      [ks[0]] + InsertByRank(rank, x, ks[1..])
  }

  /** The stable sort of ks by rank. */
  function SortByRank(rank: int -> int, ks: seq<int>): (r: seq<int>)
    ensures multiset(r) == multiset(ks)
    decreases |ks|
  {
    if |ks| == 0 then []
    else
      assert ks == ks[..|ks| - 1] + [ks[|ks| - 1]];
      InsertByRank(rank, ks[|ks| - 1], SortByRank(rank, ks[..|ks| - 1]))
  }

  lemma DistinctCons(h: int, t: seq<int>)
    ensures Distinct([h] + t) <==> h !in t && Distinct(t)
  {
    var s := [h] + t;
    assert s[1..] == t;
    if Distinct(s) {
      forall i | 0 <= i < |t|
        ensures t[i] != h
      {
        assert s[0] != s[i + 1];
      }
      forall i, j | 0 <= i < j < |t|
        ensures t[i] != t[j]
      {
        assert s[i + 1] != s[j + 1];
      }
    }
    if h !in t && Distinct(t) {
      forall i, j | 0 <= i < j < |s|
        ensures s[i] != s[j]
      {
        assert s[j] == t[j - 1] && t[j - 1] in t;
        if i > 0 {
          assert s[i] == t[i - 1];
        }
      }
    }
  }

  lemma ConsSorted(rank: int -> int, h: int, t: seq<int>)
    requires SortedBy(rank, t)
    requires forall y :: y in t ==> rank(h) <= rank(y)
    ensures SortedBy(rank, [h] + t)
  {
    var s := [h] + t;
    forall i, j | 0 <= i < j < |s|
      ensures rank(s[i]) <= rank(s[j])
    {
      assert s[j] == t[j - 1] && t[j - 1] in t;
      if i > 0 {
        assert s[i] == t[i - 1];
      }
    }
  }

  lemma {:induction false} InsertKeepsOrder(rank: int -> int, x: int, ks: seq<int>)
    requires SortedBy(rank, ks)
    ensures SortedBy(rank, InsertByRank(rank, x, ks))
    ensures Distinct(ks) && x !in ks ==> Distinct(InsertByRank(rank, x, ks))
    decreases |ks|
  {
    if |ks| == 0 || rank(x) < rank(ks[0]) {
      assert forall y :: y in ks ==> rank(ks[0]) <= rank(y);
      ConsSorted(rank, x, ks);
      DistinctCons(x, ks);
    } else {
      var t := ks[1..];
      assert SortedBy(rank, t) by {
        forall i, j | 0 <= i < j < |t|
          ensures rank(t[i]) <= rank(t[j])
        {
          assert t[i] == ks[i + 1] && t[j] == ks[j + 1];
        }
      }
      InsertKeepsOrder(rank, x, t);
      InsertBehindSorted(rank, x, ks);
      if Distinct(ks) && x !in ks {
        InsertBehindDistinct(rank, x, ks);
      }
    }
  }

  /** The steps of `InsertKeepsOrder` where x goes behind the first key. */
  lemma InsertBehindSorted(rank: int -> int, x: int, ks: seq<int>)
    requires SortedBy(rank, ks) && |ks| > 0 && rank(ks[0]) <= rank(x)
    requires SortedBy(rank, InsertByRank(rank, x, ks[1..]))
    ensures SortedBy(rank, InsertByRank(rank, x, ks))
  {
    var t := ks[1..];
    var rest := InsertByRank(rank, x, t);
    assert InsertByRank(rank, x, ks) == [ks[0]] + rest;
    forall y | y in rest
      ensures rank(ks[0]) <= rank(y)
    {
      assert y in multiset(rest);
      if y != x {
        var j :| 0 <= j < |t| && t[j] == y;
        assert ks[j + 1] == y;
      }
    }
    ConsSorted(rank, ks[0], rest);
  }

  lemma InsertBehindDistinct(rank: int -> int, x: int, ks: seq<int>)
    requires |ks| > 0 && rank(ks[0]) <= rank(x)
    requires Distinct(ks) && x !in ks
    requires Distinct(InsertByRank(rank, x, ks[1..]))
    ensures Distinct(InsertByRank(rank, x, ks))
  {
    var t := ks[1..];
    var rest := InsertByRank(rank, x, t);
    assert InsertByRank(rank, x, ks) == [ks[0]] + rest;
    assert ks == [ks[0]] + t;
    DistinctCons(ks[0], t);
    assert ks[0] !in multiset(rest);
    DistinctCons(ks[0], rest);
  }


  lemma {:induction false} SortIsOrdered(rank: int -> int, ks: seq<int>)
    ensures SortedBy(rank, SortByRank(rank, ks))
    ensures Distinct(ks) ==> Distinct(SortByRank(rank, ks))
    decreases |ks|
  {
    if |ks| > 0 {
      var init := ks[..|ks| - 1];
      var last := ks[|ks| - 1];
      SortIsOrdered(rank, init);
      InsertKeepsOrder(rank, last, SortByRank(rank, init));
      if Distinct(ks) {
        assert Distinct(init);
        assert last !in init;
        assert last !in multiset(SortByRank(rank, init));
      }
    }
  }

  /** The keys in the order `for k in d` visits them: each key exactly once, by
      increasing rank. */
  function Iterate(order: DictOrder, m: VersionMap): (ks: seq<int>)
    ensures |ks| == |m|
    ensures forall k :: k in ks <==> k in Keys(m)
    ensures DistinctKeys(m) ==> Distinct(ks)
    ensures forall i, j :: 0 <= i < j < |ks| ==> order(ks[i], Keys(m)) <= order(ks[j], Keys(m))
  {
    var rank := k => order(k, Keys(m));
    SortIsOrdered(rank, Keys(m));
    var ks := SortByRank(rank, Keys(m));
    assert |ks| == |multiset(ks)| == |Keys(m)|;
    assert forall k :: k in ks <==> k in multiset(Keys(m));
    ks
  }

  /** The first position of k in ks, or |ks| when k is absent. */
  function Position(ks: seq<int>, k: int): (p: nat)
    ensures p <= |ks|
    ensures p < |ks| <==> k in ks
    ensures p < |ks| ==> ks[p] == k
    ensures forall i :: 0 <= i < p ==> ks[i] != k
    decreases |ks|
  {
    if |ks| == 0 then 0
    else if ks[0] == k then 0
    else
      assert forall i :: 1 <= i < |ks| ==> ks[i] == ks[1..][i - 1];
      1 + Position(ks[1..], k)
  }

  /** The order that ranks a key by its place in the listing ks. */
  function ListingOrder(ks: seq<int>): DictOrder {
    (k: int, inserted: seq<int>) => Position(ks, k)
  }

  /** Positions strictly increasing along r, all below |r|, are exactly 0 .. |r|-1. */
  lemma {:induction false} PositionAtLeast(ks: seq<int>, r: seq<int>, i: nat)
    requires i < |r|
    requires forall a, b :: 0 <= a < b < |r| ==> Position(ks, r[a]) < Position(ks, r[b])
    ensures Position(ks, r[i]) >= i
    decreases i
  {
    if i > 0 {
      PositionAtLeast(ks, r, i - 1);
    }
  }

  lemma {:induction false} PositionAtMost(ks: seq<int>, r: seq<int>, i: nat)
    requires i < |r| && Position(ks, r[|r| - 1]) < |r|
    requires forall a, b :: 0 <= a < b < |r| ==> Position(ks, r[a]) < Position(ks, r[b])
    ensures Position(ks, r[i]) <= i
    decreases |r| - i
  {
    if i < |r| - 1 {
      PositionAtMost(ks, r, i + 1);
    }
  }

  lemma PositionsIncrease(ks: seq<int>, r: seq<int>)
    requires Distinct(ks) && Distinct(r)
    requires forall y :: y in r ==> y in ks
    requires forall i, j :: 0 <= i < j < |r| ==> Position(ks, r[i]) <= Position(ks, r[j])
    ensures forall i, j :: 0 <= i < j < |r| ==> Position(ks, r[i]) < Position(ks, r[j])
  {
    forall a, b | 0 <= a < b < |r|
      ensures Position(ks, r[a]) < Position(ks, r[b])
    {
      assert r[a] in ks && r[b] in ks;
      assert r[a] != r[b];
    }
  }

  /** A listing of ks's keys, each once, in increasing position in ks is ks itself. */
  lemma ListingSortedByPosition(ks: seq<int>, r: seq<int>)
    requires Distinct(ks) && Distinct(r) && |r| == |ks|
    requires forall y :: y in r ==> y in ks
    requires forall i, j :: 0 <= i < j < |r| ==> Position(ks, r[i]) <= Position(ks, r[j])
    ensures r == ks
  {
    PositionsIncrease(ks, r);
    forall i | 0 <= i < |r|
      ensures r[i] == ks[i]
    {
      assert r[|r| - 1] in ks && r[i] in ks;
      PositionAtLeast(ks, r, i);
      PositionAtMost(ks, r, i);
    }
  }


  /** Every way of listing a dictionary's keys, each once, is the iteration order
      of some `DictOrder`: the model constrains the order to be a permutation of
      the keys and nothing more. */
  lemma EveryListingIsAnOrder(m: VersionMap, ks: seq<int>)
    requires DistinctKeys(m) && Distinct(ks) && |ks| == |m|
    requires forall k :: k in ks <==> k in Keys(m)
    ensures Iterate(ListingOrder(ks), m) == ks
  {
    var r := Iterate(ListingOrder(ks), m);
    forall i, j | 0 <= i < j < |r|
      ensures Position(ks, r[i]) <= Position(ks, r[j])
    {
      assert ListingOrder(ks)(r[i], Keys(m)) <= ListingOrder(ks)(r[j], Keys(m));
    }
    ListingSortedByPosition(ks, r);
  }


  /** Position of key k, if present. */
  function IndexOf(m: VersionMap, k: int): (r: Option<nat>)
    ensures r.Some? ==> r.value < |m| && m[r.value].0 == k
    ensures r.Some? ==> forall j :: 0 <= j < r.value ==> m[j].0 != k
    ensures r.None? ==> forall j :: 0 <= j < |m| ==> m[j].0 != k
    decreases |m|
  {
    if |m| == 0 then None
    else if m[|m| - 1].0 == k then
      var r := IndexOf(m[..|m| - 1], k);
      if r.Some? then r else Some(|m| - 1)
    else IndexOf(m[..|m| - 1], k)
  }

  /** `d.get(k, None)`. */
  function Lookup(m: VersionMap, k: int): (r: Option<VersionRecord>)
    ensures r.None? <==> k !in Keys(m)
    ensures r.Some? ==> exists i :: 0 <= i < |m| && m[i] == (k, r.value)
    ensures DistinctKeys(m) ==> forall i :: 0 <= i < |m| && m[i].0 == k ==> r == Some(m[i].1)
  {
    match IndexOf(m, k)
    case None => None
    case Some(i) => Some(m[i].1)
  }

  /** `d[k] = v`: an existing key keeps its entry and takes the new value; a new key
      is recorded after the keys inserted before it. */
  function Put(m: VersionMap, k: int, v: VersionRecord): (r: VersionMap)
    ensures k in Keys(m) ==> Keys(r) == Keys(m)
    ensures k !in Keys(m) ==> r == m + [(k, v)]
    ensures Lookup(r, k) == Some(v)
    ensures forall j :: j != k ==> Lookup(r, j) == Lookup(m, j)
    ensures DistinctKeys(m) ==> DistinctKeys(r)
  {
    match IndexOf(m, k)
    case None =>
      var r := m + [(k, v)];
      assert forall p :: 0 <= p < |m| ==> r[p] == m[p];
      assert Keys(r) == Keys(m) + [k];
      r
    case Some(i) =>
      var r := m[i := (k, v)];
      assert forall p :: 0 <= p < |m| ==> r[p].0 == m[p].0;
      assert Keys(r) == Keys(m);
      assert forall j :: j != k ==> IndexOf(r, j) == IndexOf(m, j) by {
        forall j | j != k
          ensures IndexOf(r, j) == IndexOf(m, j)
        {
          IndexOfUpdate(m, i, v, j);
        }
      }
      r
  }

  /** Replacing the value at one position does not move any other key. */
  lemma {:induction false} IndexOfUpdate(m: VersionMap, i: nat, v: VersionRecord, j: int)
    requires i < |m| && m[i].0 != j
    ensures IndexOf(m[i := (m[i].0, v)], j) == IndexOf(m, j)
    decreases |m|
  {
    var r := m[i := (m[i].0, v)];
    if i < |m| - 1 {
      assert r[..|r| - 1] == m[..|m| - 1][i := (m[i].0, v)];
      IndexOfUpdate(m[..|m| - 1], i, v, j);
    } else {
      assert r[..|r| - 1] == m[..|m| - 1];
    }
  }

  /** The value of the last raw entry whose key converts to n. */
  function LastWith(raw: seq<(string, VersionRecord)>, n: int): Option<VersionRecord>
    decreases |raw|
  {
    if |raw| == 0 then None
    else if ParseInt(raw[|raw| - 1].0) == Some(n) then Some(raw[|raw| - 1].1)
    else LastWith(raw[..|raw| - 1], n)
  }

  /** The key conversion loop of `get_versions_data`: every key of the stored
      object, in the order it is iterated, goes through `int()` and is assigned
      into a fresh dictionary. */
  function ConvertKeys(raw: seq<(string, VersionRecord)>): (r: Fallible<VersionMap>)
    ensures r.Success? <==> forall i :: 0 <= i < |raw| ==> ParseInt(raw[i].0).Some?
    ensures r.Failure? ==> r.error == BadVersionKey
    ensures r.Success? ==> DistinctKeys(r.value)
    ensures r.Success? ==> forall n :: Lookup(r.value, n) == LastWith(raw, n)
    ensures r.Success? ==> |r.value| <= |raw|
    decreases |raw|
  {
    if |raw| == 0 then Success([])
    else
      var last := raw[|raw| - 1];
      var init := raw[..|raw| - 1];
      assert forall i :: 0 <= i < |init| ==> init[i] == raw[i];
      match ConvertKeys(init)
      case Failure(e) => Failure(e)
      case Success(m) =>
        match ParseInt(last.0)
        case None => Failure(BadVersionKey)
        case Some(k) =>
          var r := Put(m, k, last.1);
          assert forall n :: Lookup(r, n) == LastWith(raw, n) by {
            forall n
              ensures Lookup(r, n) == LastWith(raw, n)
            {
              if n != k {
                assert LastWith(raw, n) == LastWith(init, n);
              }
            }
          }
          Success(r)
  }

  /** The raw records paired with the numbers `ns`, position by position. */
  function Zip(raw: seq<(string, VersionRecord)>, ns: seq<int>): (m: VersionMap)
    requires |raw| == |ns|
    ensures |m| == |raw|
    ensures forall i :: 0 <= i < |raw| ==> m[i] == (ns[i], raw[i].1)
  {
    seq(|raw|, i requires 0 <= i < |raw| => (ns[i], raw[i].1))
  }

  lemma ConvertKeysSnoc(raw: seq<(string, VersionRecord)>, m: VersionMap, k: int)
    requires |raw| > 0
    requires ConvertKeys(raw[..|raw| - 1]) == Success(m)
    requires ParseInt(raw[|raw| - 1].0) == Some(k)
    ensures ConvertKeys(raw) == Success(Put(m, k, raw[|raw| - 1].1))
  {
  }

  lemma ZipSnoc(raw: seq<(string, VersionRecord)>, ns: seq<int>)
    requires |raw| == |ns| > 0
    ensures Zip(raw, ns) == Zip(raw[..|raw| - 1], ns[..|ns| - 1]) + [(ns[|ns| - 1], raw[|raw| - 1].1)]
  {
    var a := Zip(raw, ns);
    var b := Zip(raw[..|raw| - 1], ns[..|ns| - 1]) + [(ns[|ns| - 1], raw[|raw| - 1].1)];
    assert |a| == |b|;
    forall i | 0 <= i < |a|
      ensures a[i] == b[i]
    {
    }
  }

  /** Raw keys that are exactly `str(n)` for distinct version numbers convert to those
      numbers, each with its own record, inserted in the order the raw keys are read. */
  lemma {:induction false} ConvertDecimalKeys(raw: seq<(string, VersionRecord)>, ns: seq<int>)
    requires |raw| == |ns| && Distinct(ns)
    requires forall i :: 0 <= i < |raw| ==> raw[i].0 == IntToDecimal(ns[i])
    ensures ConvertKeys(raw) == Success(Zip(raw, ns))
    decreases |raw|
  {
    if |raw| == 0 {
      assert Zip(raw, ns) == [];
    } else {
      var init, ninit := raw[..|raw| - 1], ns[..|ns| - 1];
      ConvertDecimalKeys(init, ninit);
      var m := Zip(init, ninit);
      var k := ns[|ns| - 1];
      assert Keys(m) == ninit;
      assert k !in Keys(m);
      ParseIntOfDecimal(k);
      ConvertKeysSnoc(raw, m, k);
      ZipSnoc(raw, ns);
    }
  }

  // ---------------------------------------------------------------------------
  // The Store getters
  // ---------------------------------------------------------------------------

  /** `get_entries(slot)`: the record stored for the slot id, else None. A slot
      without an id is never a key of the (string-keyed) JSON data. */
  function GetEntries(data: Data, slot: Option<string>): (r: Option<SlotRecord>)
    ensures r.Some? <==> slot.Some? && slot.value in data
    ensures r.Some? ==> r.value == data[slot.value]
  {
    if slot.Some? && slot.value in data then Some(data[slot.value]) else None
  }

  /** `get_type_data(slot)`: the record's "type", or None when the slot or its
      "type" key is absent. */
  function GetTypeData(data: Data, slot: Option<string>): (r: Option<ContentKind>)
    ensures GetEntries(data, slot).None? ==> r.None?
    ensures GetEntries(data, slot).Some? ==> r == GetEntries(data, slot).value.kind
  {
    match GetEntries(data, slot)
    case None => None
    case Some(e) => e.kind
  }

  /** `get_versions_data(slot)`: the "versions" object with its keys converted to
      integers, None when the slot or its "versions" key is absent; a key that
      is not a decimal integer makes `int()` raise. */
  function GetVersionsData(data: Data, slot: Option<string>): (r: Fallible<Option<VersionMap>>)
    ensures r.Success? && r.value.None? <==>
              GetEntries(data, slot).None? || GetEntries(data, slot).value.versions.None?
    ensures r.Success? && r.value.Some? ==>
              var raw := GetEntries(data, slot).value.versions.value;
              DistinctKeys(r.value.value) && forall n :: Lookup(r.value.value, n) == LastWith(raw, n)
    ensures GetEntries(data, slot).Some? && GetEntries(data, slot).value.versions.Some? ==>
              var raw := GetEntries(data, slot).value.versions.value;
              (r.Success? <==> forall i :: 0 <= i < |raw| ==> ParseInt(raw[i].0).Some?)
    ensures r.Failure? ==> r.error == BadVersionKey
  {
    match GetEntries(data, slot)
    case None => Success(None)
    case Some(e) =>
      match e.versions
      case None => Success(None)
      case Some(raw) =>
        var m :- ConvertKeys(raw);
        Success(Some(m))
  }

  /** `get_version_data(slot, version)`: the record under integer key `version`,
      else None. */
  function GetVersionData(data: Data, slot: Option<string>, version: int): (r: Fallible<Option<VersionRecord>>)
    ensures GetVersionsData(data, slot).Failure? <==> r.Failure?
    ensures r.Failure? ==> r.error == BadVersionKey
    ensures r.Success? ==>
              (r.value.Some? <==> GetVersionsData(data, slot).value.Some? &&
                                  version in Keys(GetVersionsData(data, slot).value.value))
    ensures r.Success? && r.value.Some? ==>
              r.value == LastWith(GetEntries(data, slot).value.versions.value, version)
  {
    var versions :- GetVersionsData(data, slot);
    match versions
    case None => Success(None)
    case Some(m) => Success(Lookup(m, version))
  }

  /** `get_dependency_data(slot, version)`: the version's "dependencies", or []
      when the version or the key is absent. */
  function GetDependencyData(data: Data, slot: Option<string>, version: int): (r: Fallible<seq<Dep>>)
    ensures r.Success? <==> GetVersionData(data, slot, version).Success?
    ensures r.Success? && GetVersionData(data, slot, version).value.None? ==> r.value == []
    ensures r.Failure? ==> r.error == BadVersionKey
    ensures r.Success? && GetVersionData(data, slot, version).value.Some? ==>
              var rec := GetVersionData(data, slot, version).value.value;
              r.value == (if rec.dependencies.Some? then rec.dependencies.value else [])
  {
    var record :- GetVersionData(data, slot, version);
    match record
    case None => Success([])
    case Some(rec) => Success(if rec.dependencies.Some? then rec.dependencies.value else [])
  }

  /** `get_content_data(slot, version)`: the version's "contents", or [] when the
      version or the key is absent. */
  function GetContentData(data: Data, slot: Option<string>, version: int): (r: Fallible<seq<Json>>)
    ensures r.Success? <==> GetVersionData(data, slot, version).Success?
    ensures r.Success? && GetVersionData(data, slot, version).value.None? ==> r.value == []
    ensures r.Failure? ==> r.error == BadVersionKey
    ensures r.Success? && GetVersionData(data, slot, version).value.Some? ==>
              var rec := GetVersionData(data, slot, version).value.value;
              r.value == (if rec.contents.Some? then rec.contents.value else [])
  {
    var record :- GetVersionData(data, slot, version);
    match record
    case None => Success([])
    case Some(rec) => Success(if rec.contents.Some? then rec.contents.value else [])
  }

  /** A "versions" object written the way `Asset` stores it: each key is `str(n)`
      of its version number, and the numbers are distinct. */
  predicate DecimalKeyed(raw: seq<(string, VersionRecord)>, ns: seq<int>) {
    |raw| == |ns| && Distinct(ns) && forall i :: 0 <= i < |raw| ==> raw[i].0 == IntToDecimal(ns[i])
  }

  /** Reading back a decimal-keyed "versions" object: the versions dict pairs each
      number with its own record, in the order the keys are read. */
  lemma DecimalKeyedVersions(data: Data, s: string, ns: seq<int>)
    requires s in data && data[s].versions.Some?
    requires DecimalKeyed(data[s].versions.value, ns)
    ensures GetVersionsData(data, Some(s)) == Success(Some(Zip(data[s].versions.value, ns)))
    ensures Keys(Zip(data[s].versions.value, ns)) == ns
  {
    ConvertDecimalKeys(data[s].versions.value, ns);
  }

  /** The getters for one number of a decimal-keyed "versions" object answer that
      number's own record and its fields. */
  lemma DecimalKeyedReads(data: Data, s: string, ns: seq<int>, i: nat)
    requires s in data && data[s].versions.Some?
    requires DecimalKeyed(data[s].versions.value, ns)
    requires i < |ns|
    ensures GetVersionData(data, Some(s), ns[i]) == Success(Some(data[s].versions.value[i].1))
    ensures var rec := data[s].versions.value[i].1;
            GetContentData(data, Some(s), ns[i]) == Success(if rec.contents.Some? then rec.contents.value else []) &&
            GetDependencyData(data, Some(s), ns[i]) == Success(if rec.dependencies.Some? then rec.dependencies.value else [])
  {
    var raw := data[s].versions.value;
    DecimalKeyedVersions(data, s, ns);
    var m := Zip(raw, ns);
    assert DistinctKeys(m);
    assert m[i] == (ns[i], raw[i].1);
    assert Lookup(m, ns[i]) == Some(raw[i].1);
  }

  /** A number that is not among the keys of a decimal-keyed "versions" object, or
      any number of a slot the data does not hold, has no record. */
  lemma UnstoredVersionReads(data: Data, s: string, ns: seq<int>, version: int)
    requires s in data ==> data[s].versions.Some? && DecimalKeyed(data[s].versions.value, ns) && version !in ns
    ensures GetVersionData(data, Some(s), version) == Success(None)
  {
    if s in data {
      DecimalKeyedVersions(data, s, ns);
    }
  }

  /** What `load_data` may be given: a dict, a path string, or anything else. */
  datatype Source = FromDict(dict: Data) | FromPath(path: string) | FromOther

  predicate EndsWithJson(path: string) {
    |path| >= 5 && path[|path| - 5..] == ".json"
  }

  /** `load_data(source)`: a dict replaces the whole data map; an existing ".json"
      path replaces it with the file's "data" object; anything else leaves it
      unchanged. `readJson(path)` stands for reading that file and is `None`
      when the path does not exist. */
  function LoadData(current: Data, source: Source, readJson: string -> Option<Data>): (r: Data)
    ensures source.FromDict? ==> r == source.dict
    ensures source.FromOther? ==> r == current
    ensures source.FromPath? && (!EndsWithJson(source.path) || readJson(source.path).None?) ==> r == current
    ensures source.FromPath? && EndsWithJson(source.path) && readJson(source.path).Some? ==>
              r == readJson(source.path).value
  {
    match source
    case FromDict(d) => d
    case FromPath(p) =>
      if EndsWithJson(p) && readJson(p).Some? then readJson(p).value else current
    case FromOther => current
  }

  /** After `load_data(d)`, every slot query answers from d: a slot stored in d
      has its record, and no other slot has an entry. */
  lemma LoadDictAnswersFromIt(current: Data, d: Data, readJson: string -> Option<Data>, slot: string)
    ensures GetEntries(LoadData(current, FromDict(d), readJson), Some(slot)) ==
              (if slot in d then Some(d[slot]) else None)
  {
  }
}

=== FILE: wrappers.dfy ===
/** Failure-compatible datatypes used throughout the model: Python's `None`
    becomes `Option.None`, and a raised exception becomes `Result.Failure`. */
module Wrappers {

  /** A value that may be Python's `None`. */
  datatype Option<+T> = None | Some(value: T)

  /** The outcome of a call that may raise. Usable with `:-`. */
  datatype Result<+T, +E> = Success(value: T) | Failure(error: E) {

    predicate IsFailure() {
      Failure?
    }

    function PropagateFailure<U>(): Result<U, E>
      requires Failure?
    {
      Failure(error)
    }

    function Extract(): T
      requires Success?
    {
      value
    }
  }

  /** The number of leading successes: the position of the first failure, or the
      length when there is none. */
  function Successes<T, E>(rs: seq<Result<T, E>>): (k: nat)
    ensures k <= |rs|
    ensures forall i :: 0 <= i < k ==> rs[i].Success?
    ensures k < |rs| ==> rs[k].Failure?
    decreases |rs|
  {
    if |rs| == 0 || rs[0].Failure? then 0
    else
      var k := Successes(rs[1..]);
      assert forall i :: 1 <= i < |rs| ==> rs[i] == rs[1..][i - 1];
      1 + k
  }

  /** The values of outcomes that all succeeded, in order. */
  function Values<T, E>(rs: seq<Result<T, E>>): (vs: seq<T>)
    requires forall i :: 0 <= i < |rs| ==> rs[i].Success?
    ensures |vs| == |rs|
    ensures forall i :: 0 <= i < |rs| ==> rs[i] == Success(vs[i])
  {
    seq(|rs|, i requires 0 <= i < |rs| => rs[i].value)
  }

  /** The concatenation of a sequence of sequences. */
  function Flatten<T>(xss: seq<seq<T>>): seq<T>
    decreases |xss|
  {
    if |xss| == 0 then [] else xss[0] + Flatten(xss[1..])
  }

  /** The values of a sequence of outcomes, in order, when every one succeeds;
      otherwise the first failure, as a loop that raises on its first error reports. */
  function Collect<T, E>(rs: seq<Result<T, E>>): (r: Result<seq<T>, E>)
    ensures r.Success? <==> Successes(rs) == |rs|
    ensures r.Success? ==> (forall i :: 0 <= i < |rs| ==> rs[i].Success?) && r.value == Values(rs)
    ensures r.Failure? ==> Successes(rs) < |rs| && r.error == rs[Successes(rs)].error
    decreases |rs|
  {
    if |rs| == 0 then Success([])
    else
      match rs[0]
      case Failure(e) => Failure(e)
      case Success(first) =>
        assert Successes(rs) == 1 + Successes(rs[1..]);
        assert forall i :: 1 <= i < |rs| ==> rs[i] == rs[1..][i - 1];
        match Collect(rs[1..])
        case Failure(e) => Failure(e)
        case Success(rest) =>
          var r := [first] + rest;
          assert forall i :: 1 <= i < |rs| ==> r[i] == rest[i - 1];
          Success(r)
  }

  /** The values of successive outcomes concatenated up to the first failure,
      together with that failure, as a loop that appends as it goes reports them. */
  function Gather<T, E>(rs: seq<Result<seq<T>, E>>): (r: (seq<T>, Option<E>))
    ensures r.0 == Flatten(Values(rs[..Successes(rs)]))
    ensures r.1 == (if Successes(rs) < |rs| then Some(rs[Successes(rs)].error) else None)
    ensures forall i :: 0 <= i < |r.0| ==> exists k :: 0 <= k < |rs| && rs[k].Success? && r.0[i] in rs[k].value
    decreases |rs|
  {
    if |rs| == 0 then
      assert Values(rs[..0]) == [];
      ([], None)
    else
      match rs[0]
      case Failure(e) =>
        assert Values(rs[..0]) == [];
        ([], Some(e))
      case Success(first) =>
        var (rest, err) := Gather(rs[1..]);
        var k := Successes(rs[1..]);
        assert Successes(rs) == 1 + k;
        assert forall j :: 0 <= j < |rs[1..]| ==> rs[1..][j] == rs[j + 1];
        var vs := Values(rs[..1 + k]);
        assert vs[0] == first && vs[1..] == Values(rs[1..][..k]);
        assert forall i :: |first| <= i < |first + rest| ==> (first + rest)[i] == rest[i - |first|];
        (first + rest, err)
  }
}

/** The exceptions the pipeline core raises, as one datatype. */
module Errors {
  import opened Wrappers

  datatype Error =
    /** DataMismatchException: the store's type for a slot differs from the slot's type. */
    | DataMismatch
    /** DataIntegrityException, raised by the older asset revision on the same condition. */
    | DataIntegrity
    /** AssetVersionInitializationException: a new version was created without contents. */
    | InitializationFailed
    /** TokenNotFoundException: a name token does not occur in the slot path. */
    | TokenNotFound
    /** The TypeError that `Asset.__eq__` / `AssetVersion.__eq__` raise for a foreign operand. */
    | IdentityTypeError
    /** The ValueError of the older AssetVersion constructor given neither slot nor asset. */
    | MissingSlotAndAsset
    /** The ValueError of `int(key)` on a version key that is not a decimal integer. */
    | BadVersionKey
    /** NotImplementedError from an abstract Container method. */
    | NotImplemented
    /** A TypeError, AttributeError or ValueError that the Python runtime raises on an
        operand of the wrong shape: `len(None)`, a method call on `None`, iterating `None`,
        joining `None`, `list.remove` of a missing item. */
    | RuntimeFault

  type Fallible<T> = Result<T, Error>
}
